=== FILE: README.md ===
# Konva sprite and waveform editing geometry

This project models the drag, resize, crop and snap logic of a small React
and Konva editor for audio sprites. Audio is drawn as waveform images or as
groups of bars. Each one is placed on a Konva layer in rows. Every element
has a draggable body and two 10 px anchors, one on the right and one on the
left. Dragging an anchor changes how much of the underlying bitmap (or bar
group) shows through a crop or clip window. Dragging the body moves the
element, and on release it snaps to a row. A snap indicator shows the row
that will be used.

The model uses real-valued coordinates and pure functions. A Konva
`dragBoundFunc` becomes a function from the element's state and the
pointer's candidate position to the position Konva keeps, together with the
state the callback leaves behind (`Sprite.Bounded`, `WaveformGroup.Moved`).
Event handlers (`dragstart`, `dragmove`, `dragend`) become functions on the
same state. Draw order on a layer or group is a sequence of nodes
(`DrawOrder`).

Modules:

- `Geometry`: points, the stage, `Min`/`Max`, and the JavaScript `Math.floor`
  and `Math.round`.
- `RowSnap`: the row snapping and the snap indicator of the class-based
  editors.
- `DrawOrder`: `moveToTop`, `moveToBottom`, and raising several nodes in a
  row.
- `AnchorHandler`: the `AnchorHandler` class that sits on a waveform group.
  It exists in the snapping, reusable and clipping files.
- `Sprite`: the shared sprite image state. This covers anchor gluing, the
  body's stage clamp, round-to-row snapping, the crop invariants and the
  initial layout.
- `SpriteLeft` and `SpriteRight`: the left- and right-anchor bound functions
  of the sprite editors, each with a corrected variant.
- `SpriteSession`: a whole session replayed through the corrected functions.
- `InlineRegion`: the anchors of the reusable image helper and of the
  waveform generator component.
- `WaveformGroup`: the clipped bar group with its outside anchors.
- `OldSprite`: the older editor, where images do not move and the crop follows
  the image.

Several files repeat the same handler code. A handler that is the same in
several files is modelled once. Its table row cites one copy and lists the
others.

The sprites glue their left anchor in one of two ways, and
`Sprite.GlueStyle` is the parameter that selects between them:

- `Flush`: on the image's left edge. This is used by `Konva.js`,
  `KonvaWaveform.js`, `utils.js` and `WaveformGenerator.js`.
- `Outset`: 10 px left of it. This is used by the sprites of
  `KonvaWaveformCliping.js` and `KonvaWaveformShape.js`.

## Model

| member | source | states |
|---|---|---|
| Geometry.Floor | src/KonvaWaveformSnapping.js:70 | the result is the greatest integer not above the argument |
| Geometry.Round | src/Konva.js:104 | the result is an integer within half a unit of the argument, and halves round up |
| RowSnap.NewSnapHandler | src/KonvaWaveformSnapping.js:116-131 | a new snap handler keeps its row height and layer width, and its indicator starts hidden |
| RowSnap.FloorSnap | src/KonvaWaveformSnapping.js:69-74 | the snapped y is a whole number of rows, and it is the top of the row that contains y |
| RowSnap.FloorSnapUnique | src/KonvaWaveformSnapping.js:133-135 | any grid line whose row contains y is the floor snap, so the snap is the only such line |
| RowSnap.FloorSnapIdempotent | src/KonvaWaveformSnapping.js:69-74 | a group already on a row line stays put, and snapping twice equals snapping once |
| RowSnap.RoundSnap | src/Konva.js:117-121 | the snapped y is a whole number of rows, at most half a row from y; on a tie it takes the lower row on screen (the larger y); the same code is repeated at KonvaWaveform.js:383-388 |
| RowSnap.RoundSnapUnique | src/Konva.js:103-104 | any grid line in the half-open half-row window around y is the round snap |
| RowSnap.RoundSnapIdempotent | src/Konva.js:117-128 | an image already on a row line stays put, and snapping twice equals snapping once |
| RowSnap.ShowIndicator | src/KonvaWaveformSnapping.js:133-143 | the indicator spans the layer width at x 0, is one row high, is visible, and outlines exactly the row containing y |
| RowSnap.HideIndicator | src/KonvaWaveformSnapping.js:145-148 | the indicator becomes invisible and keeps its position and size |
| DrawOrder.MoveToTop | src/KonvaWaveformCliping.js:49 | a child node ends up last, and a node that is not a child changes nothing |
| DrawOrder.BringToFrontOrder | src/Konva.js:139-141 | raising distinct children one after another gives the others in their old order, then the raised ones in call order |
| DrawOrder.RaiseRegionOrder | src/Konva.js:91-96 | the image dragstart leaves the image, the right anchor and the left anchor on top, in that order; the same code is repeated at Konva.js:139-141, KonvaWaveform.js:118-123, KonvaWaveform.js:144-146, KonvaWaveform.js:357-362, KonvaWaveform.js:405-407, KonvaWaveformCliping.js:269-274, KonvaWaveformCliping.js:317-319, KonvaWaveformShape.js:79-84, KonvaWaveformShape.js:298-303, KonvaWaveformShape.js:346-348 |
| DrawOrder.RaiseRegionLeftFirstOrder | src/Konva.js:175-177 | the left bound function leaves the image, the left anchor and then the right anchor on top; the same code is repeated at KonvaWaveform.js:182-184, KonvaWaveform.js:441-443, KonvaWaveformCliping.js:353-355, KonvaWaveformShape.js:382-384 |
| DrawOrder.MoveToBottom | src/KonvaWaveformCliping.js:24 | a child node ends up first, and a node that is not a child changes nothing |
| DrawOrder.FrameToBottom | src/KonvaWaveformShape.js:55-57 | a frame added last and then sent to the bottom is drawn under all the bars, which keep their order |
| AnchorHandler.Create | src/KonvaWaveformSnapping.js:5-13 | the frame covers the clip width from the group's origin, the right anchor sits 10 px inside the clip's right end, and the left anchor sits at the origin; the same code is repeated at KonvaWaveformReusableClass.js:5-12 |
| AnchorHandler.CreateGlued | src/KonvaWaveformSnapping.js:11-13 | a new handler satisfies the anchor/clip invariant exactly when the clip is at least 30 px wide |
| AnchorHandler.CreateOnGroup | src/KonvaWaveformCliping.js:5-9 | the clipping variant's frame covers the whole group, the right anchor sits 10 px inside the group's right edge, and the left anchor sits at the origin |
| AnchorHandler.CreateOnGroupGlued | src/KonvaWaveformCliping.js:14-26 | a handler built on a group clipped from its origin with a clip at least 30 px wide satisfies the invariant |
| AnchorHandler.CreateRaiseKeepsOrder | src/KonvaWaveformSnapping.js:18-20 | whatever the group already holds, raising the frame and both anchors, which the constructor added last in that order, leaves the group's draw order unchanged; the same code is repeated at KonvaWaveformReusableClass.js:16-18 |
| AnchorHandler.CreateOnEmptyGroupOrder | src/KonvaWaveformCliping.js:129-141 | at the three waveform call sites the handler is built on a still empty group and the bars are added afterwards, so the constructors' raise or `moveToBottom` changes nothing and the frame and both anchors end up drawn under every bar; the same call order is at KonvaWaveformSnapping.js:180-198, KonvaWaveformReusableClass.js:135-151 (the sprite call sites, KonvaWaveformSnapping.js:285-286 and KonvaWaveformReusableClass.js:243-244, add the image first and are covered by `AnchorHandler.CreateRaiseKeepsOrder`) |
| AnchorHandler.Resize | src/KonvaWaveformSnapping.js:51-52 | an anchor drag event runs the dragged anchor's own bound: the right anchor's for a right drag, the left anchor's for a left drag; each step keeps a glued handler glued and never moves the group or changes its size; the same wiring is repeated at KonvaWaveformReusableClass.js:49-50, KonvaWaveformCliping.js:43-44 |
| AnchorHandler.RightDrag | src/KonvaWaveformSnapping.js:77-90 | the right anchor goes to row 0, capped at the group width minus 10 and held at least 20 px right of the left anchor; the clip and frame widths then reach its right side, and the anchor's own handler changes nothing else; the same code is repeated at KonvaWaveformReusableClass.js:62-77, KonvaWaveformCliping.js:55-70 |
| AnchorHandler.LeftDrag | src/KonvaWaveformSnapping.js:92-105 | the left anchor goes to row 0, floored at 0 and held at least 20 px left of the right anchor; the clip and frame then start at it and end at the right anchor's right side; the same code is repeated at KonvaWaveformReusableClass.js:79-95, KonvaWaveformCliping.js:72-88 |
| AnchorHandler.RightDragBounds | src/KonvaWaveformSnapping.js:79-85 | with a left anchor in range, the right anchor stays within the group and 20 px clear of the left anchor |
| AnchorHandler.RightDragIdempotent | src/KonvaWaveformReusableClass.js:62-72 | handling the anchor again at the position the handler left it changes nothing, and a candidate already in range is kept as is |
| AnchorHandler.LeftDragBounds | src/KonvaWaveformSnapping.js:93-99 | the left anchor stays 20 px clear of the right anchor, and never goes left of the group origin when the right anchor is at least 20 px in |
| AnchorHandler.LeftDragIdempotent | src/KonvaWaveformReusableClass.js:79-88 | handling the anchor again at the position the handler left it changes nothing, and a candidate already in range is kept as is |
| AnchorHandler.DragsKeepGlued | src/KonvaWaveformCliping.js:55-88 | both anchor handlers keep the clip and the frame exactly between the anchors' outer sides |
| AnchorHandler.ApplyDrags | src/KonvaWaveformCliping.js:43-44 | any sequence of anchor drags keeps the invariant and leaves the group's position and size alone |
| AnchorHandler.GroupDragMove | src/KonvaWaveformSnapping.js:65-67 | a group drag moves the group to the candidate and shows the indicator at x 0, as wide as the layer and one row high, on the grid row that contains the group's y |
| AnchorHandler.GroupDragEnd | src/KonvaWaveformSnapping.js:69-74 | on release the group moves to the top of its row, keeps its x, and the indicator is hidden |
| AnchorHandler.ReleaseLandsOnIndicator | src/KonvaWaveformSnapping.js:64-75 | the group lands on the y the indicator showed during the drag |
| AnchorHandler.AnchorDragMove | src/KonvaWaveformSnapping.js:51-67 | an anchor drag in the snapping editor bubbles to the group: the handler resizes the group without moving it, and the group's handler shows the indicator at x 0, as wide as the layer and one row high, on the grid row holding the group's top |
| AnchorHandler.AnchorReleaseSnapsGroup | src/KonvaWaveformSnapping.js:69-74 | releasing an anchor also runs the group's `dragend`: the resize is kept, the handler stays glued, and only the group's y changes, to the floor snap the indicator showed |
| AnchorHandler.FirstAnchorReleaseLifts | src/KonvaWaveformSnapping.js:171-186 | the group built at (10, 10) with rows 200 high is lifted to y 0 by the first anchor release |
| AnchorHandler.DragStart | src/KonvaWaveformSnapping.js:56-61 | the group ends last on its layer, and a group that is not on the layer leaves it unchanged; the same code is repeated at KonvaWaveformReusableClass.js:54-59 |
| AnchorHandler.DragStartOrder | src/KonvaWaveformSnapping.js:56-61 | the group's children end as the other children in their old order followed by frame, right anchor, left anchor |
| AnchorHandler.ClipDragStart | src/KonvaWaveformCliping.js:48-52 | the clipping class's dragstart puts the group last on its layer, and a group that is not on the layer leaves it unchanged |
| AnchorHandler.ClipDragStartOrder | src/KonvaWaveformCliping.js:48-52 | the two anchors end on top in the order right then left, and the frame keeps its place |
| Sprite.UpdateAnchors | src/Konva.js:67-75 | the right anchor's right side meets the image's right edge and the left anchor meets its left edge, both on the image's top row and as tall as the image; the image is not touched; the same code is repeated at KonvaWaveform.js:94-102, KonvaWaveform.js:333-341, components/utils.js:87-95, components/WaveformGenerator.js:36-44, components/WaveformGenerator.js:161-169, KonvaWaveformCliping.js:245-253, KonvaWaveformShape.js:274-282 |
| Sprite.UpdateAnchorsFixes | src/Konva.js:67-75 | a region is left unchanged by the update exactly when it is already glued, and updating twice equals updating once |
| Sprite.BodyBound | src/Konva.js:50-64 | the kept position is never left of or above the stage; it keeps the image on the stage when it fits, goes to 0 on an axis where it does not, and leaves a position inside the allowed box alone; the same code is repeated at KonvaWaveform.js:77-91, KonvaWaveform.js:316-330, KonvaWaveformCliping.js:228-242, KonvaWaveformShape.js:257-271, components/utils.js:73-84, components/WaveformGenerator.js:22-33, components/WaveformGenerator.js:147-158 |
| Sprite.BodyBoundNearest | src/Konva.js:50-64 | when the image fits on the stage, the kept position is the allowed point nearest the pointer on each axis, and clamping twice equals clamping once |
| Sprite.DragMove | src/Konva.js:98-115 | the anchors are glued, the image is where the clamp put it, and the visible indicator has the image's x and size on the nearest row; the same code is repeated at KonvaWaveform.js:364-381, KonvaWaveformCliping.js:276-293, KonvaWaveformShape.js:305-322, components/utils.js:145-160, components/WaveformGenerator.js:94-109, components/WaveformGenerator.js:219-234 |
| Sprite.DragEnd | src/Konva.js:117-128 | the image moves to the nearest row and keeps its x, the anchors are glued again, and the indicator is hidden; the same code is repeated at KonvaWaveform.js:383-394, KonvaWaveformCliping.js:295-306, KonvaWaveformShape.js:324-335, components/utils.js:162-171, components/WaveformGenerator.js:111-120, components/WaveformGenerator.js:236-245 |
| Sprite.ReleaseLandsOnIndicator | src/Konva.js:98-128 | the image lands on the row and x the indicator showed during the last move |
| Sprite.ReleaseStaysBelowTop | src/Konva.js:117-121 | an image released at y 0 or below is snapped to y 0 or below |
| Sprite.ReleaseCanPassBottom | src/Konva.js:117-121 | rounding to the nearest row can push the image past the stage's bottom: a 200 px image held at y 500 on a 700 px stage is released at y 600, with its bottom edge at 800 |
| Sprite.GlueMove | src/KonvaWaveform.js:125-133 | the waveform image's dragmove and dragend only glue the anchors to where the image is |
| Sprite.BodyDragKeepsCrop | src/Konva.js:50-64 | moving the body keeps the crop, so the picture moves with the image and every visible bitmap column is shifted by the same offset |
| Sprite.Layout | src/Konva.js:37-48 | image `index` is at x 50·index and y 0, 300 px wide and cropped to its first 300 columns; it is glued, and it lies inside its bitmap exactly when the bitmap is at least 300 px wide; the same code is repeated at KonvaWaveform.js:303-314, KonvaWaveformCliping.js:344-350, KonvaWaveformShape.js:373-379 |
| SpriteLeft.LeftBound | src/Konva.js:180-216 | a candidate at or past the right edge, or one that would make the image narrower than 30 px or start its crop before column 0, is refused with the anchor held; otherwise the image starts at the candidate, keeps its right edge and the crop's right column, and the right anchor is glued; the same code is repeated at KonvaWaveform.js:187-223, KonvaWaveform.js:446-483, KonvaWaveformCliping.js:358-395, KonvaWaveformShape.js:387-423 |
| SpriteLeft.LeftBoundKeepsContent | src/Konva.js:193-209 | an accepted left drag keeps the crop consistent and inside the bitmap, and each layer column still covered shows the same bitmap column |
| SpriteLeft.LeftBoundRejectKeeps | src/Konva.js:184-198 | a refused left drag leaves the image as it was |
| SpriteLeft.LeftBoundAnchorPlacement | src/KonvaWaveformCliping.js:387-394 | after an accepted left drag the flush region is glued, while the outset left anchor is left 10 px right of its glued place |
| SpriteLeft.ClampedLeftBound | src/Konva.js:180-216 | the corrected left bound: the image's left edge is the clamped x, so it never leaves the stage; otherwise as the left bound function |
| SpriteLeft.ClampedLeftBoundKeeps | src/Konva.js:181 | the corrected left drag keeps the image on the stage and inside its bitmap with unchanged content per column, and agrees with the original for candidates at or right of x 0 |
| SpriteRight.KonvaRight | src/Konva.js:143-162 | a candidate at or past the bitmap's natural width is held there; one under 30 px from the left edge is held 20 px right of that edge; a held drag changes nothing but the right anchor's position; otherwise the image and crop become the candidate's distance wide, the crop keeps its x and is set to row 0 and the image's height, nothing else of the image changes, the left anchor is glued, and the right anchor is left at the new right edge |
| SpriteRight.KonvaRightKeepsConsistent | src/Konva.js:149-156 | the right bound function of the sprite editor keeps the image consistent with its crop and at least 30 px wide |
| SpriteRight.WaveformRight | src/KonvaWaveform.js:148-169 | the width is the candidate's distance from the left edge capped at the natural width; it is accepted exactly when that is at least 30; an accepted drag changes only the image's width and crop (same x, row 0, the image's height), and the anchor is handed back at the new right edge; a refused one moves only the right anchor, to 30 px right of the left edge |
| SpriteRight.SpriteRightBound | src/KonvaWaveform.js:409-429 | the sprite right bound: accepted widths give a glued region with the anchor at the image's right edge less 10; only the width and crop of the image change (same x, row 0, the image's height); a refused drag moves only the right anchor, to 20 px right of the left edge; the same code is repeated at KonvaWaveformCliping.js:321-340, KonvaWaveformShape.js:350-369 |
| SpriteRight.WaveformRightIsSpriteRightOutside | src/KonvaWaveform.js:409-414 | the waveform image's right bound is the sprite one with the anchor 10 px further right |
| SpriteRight.SpriteRightKeepsConsistent | src/KonvaWaveformCliping.js:321-334 | the sprite and waveform-image right bounds keep the image consistent with its crop, and after an accepted drag, dragging again with the same pointer-side candidate (10 px right of the handed-back x) changes nothing |
| SpriteRight.SpriteRightAgainAtAnchor | src/KonvaWaveformCliping.js:321-334 | the anchor is handed back 10 px left of the new right edge, so a further drag event whose candidate is that handed-back position narrows the image by another 10 px, or holds it once it would fall under 30 px |
| SpriteRight.ClampedSpriteRightBound | src/KonvaWaveformCliping.js:321-340 | the corrected right bound caps the width at what the bitmap has left after the crop's x; an accepted drag changes only the image's width and crop and leaves the region glued; a refused one moves only the right anchor, to 20 px right of the left edge |
| SpriteRight.ClampedSpriteRightKeeps | src/KonvaOld.js:46-53 | the corrected right drag keeps the crop inside the bitmap, and agrees with the original when the crop starts at column 0 |
| SpriteSession.Replay | src/KonvaWaveformCliping.js:215-396 | with the corrected anchors, any mix of body moves, releases and anchor drags keeps the image's top-left corner never left of or above the stage and its crop inside the bitmap, keeps its height, and a session ending in a release leaves the indicator hidden |
| InlineRegion.InlineRight | src/components/utils.js:105-115 | the width is the candidate's distance capped at the natural width; under 30 the anchor is held 30 px right of the left edge, otherwise the crop restarts at column 0 and the candidate is kept as is; the same code is repeated at components/WaveformGenerator.js:54-64, components/WaveformGenerator.js:179-189 |
| InlineRegion.InlineLeft | src/components/utils.js:126-142 | under 30 px the anchor is held 30 px left of the right edge; otherwise the image starts at the candidate, keeps its right edge, and its crop starts at column 0; the same code is repeated at components/WaveformGenerator.js:75-91, components/WaveformGenerator.js:200-216 |
| InlineRegion.CropStaysAtOrigin | src/components/utils.js:105-142 | with the crop at column 0, both anchors keep it there and keep the image consistent |
| InlineRegion.InlineLeftSlidesContent | src/components/utils.js:131-138 | an accepted left drag shifts every visible bitmap column by the distance the left edge moved |
| InlineRegion.InlineLeftMovesCropEnd | src/components/utils.js:131-138 | a 300 px image dragged by its left anchor from x 100 to 150 shows bitmap columns 0 to 250 instead of 50 to 300 |
| WaveformGroup.Create | src/KonvaWaveformShape.js:21-33 | the group is built at (10, 10), clipped to all its bars, with the right anchor at its right edge and the left anchor at its origin |
| WaveformGroup.UpdateAnchors | src/KonvaWaveformShape.js:59-67 | the right anchor goes just right of the clip window and the left anchor just left of it, on the group's top; nothing else changes |
| WaveformGroup.CreateGlue | src/KonvaWaveformShape.js:98-129 | the built group is glued on the right, but the first group drag moves the left anchor 10 px to the left |
| WaveformGroup.GroupMove | src/KonvaWaveformShape.js:86-94 | the group goes where the pointer put it, the anchors follow the clip, and the clip and frame are unchanged |
| WaveformGroup.GroupMoveCarriesAnchors | src/KonvaWaveformShape.js:86-94 | moving a glued group moves both anchors by the group's offset |
| WaveformGroup.RightBound | src/KonvaWaveformShape.js:106-124 | the candidate is capped at the group's right edge; too near the left anchor, the frame collapses to 10 px with the anchor held 20 px right of the left anchor; otherwise the clip and frame widths reach the candidate |
| WaveformGroup.RightBoundStaysGlued | src/KonvaWaveformShape.js:106-124 | with a glued left anchor, an accepted right drag leaves the right anchor where the next update puts it, within the group |
| WaveformGroup.LeftBound | src/KonvaWaveformShape.js:135-168 | the candidate is floored at 10 px left of the group's origin; too near the right anchor, the frame collapses with the anchor held; otherwise the clip and frame start just right of the anchor and end at the right anchor |
| WaveformGroup.LeftBoundStaysGlued | src/KonvaWaveformShape.js:135-168 | an accepted left drag leaves both anchors exactly where the next update puts them |
| WaveformGroup.ClipStartsInside | src/KonvaWaveformShape.js:136-140 | no anchor drag or group move can start the clip window before the group's origin |
| OldSprite.OldLayout | src/KonvaOld.js:24-42 | each old image is at x 0, one bitmap height below the previous one, 300 px wide, with its crop aligned to its x and its anchors glued |
| OldSprite.AlignedPinsBitmap | src/KonvaOld.js:70-78 | with the crop aligned to the image's x, every layer column shows the bitmap column of the same number |
| OldSprite.OldRight | src/KonvaOld.js:45-58 | the width is the candidate's distance capped at what the bitmap has left after the crop's x; the crop never passes the bitmap's end; the anchor goes to the new right edge |
| OldSprite.OldLeft | src/KonvaOld.js:69-83 | the image and the crop's x both go to the candidate, the right edge is kept or the image collapses to zero width, and the anchor is handed back at the candidate, but not left of 0 nor past 10 px short of the new right edge |
| OldSprite.OldDragsKeepAligned | src/KonvaOld.js:45-83 | both old anchors keep the crop aligned; the right one keeps it inside the bitmap; the left one keeps the crop's end inside unless dragged past the right edge, and its start at column 0 or later exactly when the candidate is not left of the stage |
| OldSprite.OldRightGoesNegative | src/KonvaOld.js:46-53 | a right-anchor candidate left of the image gives it a negative width |
| SpriteRight.SpriteRightOverflows | src/KonvaWaveformCliping.js:321-334 | a sprite whose crop starts at column 50 and is widened by its right anchor ends its crop at column 340 of a 300 px bitmap |
| SpriteLeft.LeftBoundLeavesStage | src/Konva.js:181-209 | an image dragged by its left anchor to x −20 is placed at x −20, off the stage |

## Left out

- Audio decoding and waveform painting (`drawWaveform`, the bar generation with `Math.floor` block sizes) are left out: they produce pixels, not geometry.
- The React components and the file and URL loading (`FileReader`, `fetch`) are left out: they are I/O and UI.
- Hover stroke colours, `console.log`, and `layer.draw`/`batchDraw` are left out: they render and do not change positions.
- The stage size comes from the browser window. It is the `Geometry.Stage` parameter.
- Konva's own drag mechanics are not modelled: the pointer-to-candidate mapping and the drag offset. The candidate position is a parameter of every bound function.
- `clipX() || 0` is modelled as the clip's x without the `|| 0` fallback. An unset clip x is not modelled.
- The reusable waveform call site builds its handler without a clip width. That gives NaN positions, and NaN is not modelled. `AnchorHandler.Create` takes the clip width as a parameter.
- At the three waveform call sites of the anchor handler, the handler is built before the bars are added, so the bars are drawn over the frame and the anchors until the first `dragstart`. `AnchorHandler.CreateOnEmptyGroupOrder` states this order; nothing in the model corrects it.
- SpriteSession.Replay: the image's right and bottom edges are not bounded by the stage. The right edge escapes because the right anchor widens the image without looking at the stage. The bottom edge escapes because the release rounds y to the nearest row, which can drop the image by up to half its height past the bottom (`Sprite.ReleaseCanPassBottom`).
- An anchor's `dragstart` also bubbles to its group, so dragging an anchor raises the group as well. That is `AnchorHandler.DragStart` or `AnchorHandler.ClipDragStart` applied unchanged, and it is not stated as a separate member.
- The raise at the start of each bound function is stated on its own draw-order list (`DrawOrder.RaiseRegion`, `DrawOrder.RaiseRegionLeftFirst`). It is not composed with the geometry in one state.
- The old editor's images are not draggable, so `OldSprite` has no body handlers.
- SpriteRight.WaveformRight: it keeps the source's cap at the natural width. That cap ignores the crop's x, as the sprite one does, and no corrected variant is given for this copy.
- SpriteRight.ClampedSpriteRightBound: it corrects only the sprite right bound.
- Sprite.Layout: the height is the bitmap's height, read once at load; `spriteHeight` is treated as the image's height, which no handler changes.

## Findings

| source | as written | input that shows it | evidently intended | confidence | as-written member | corrected member |
|---|---|---|---|---|---|---|
| src/KonvaWaveformCliping.js:321-334 | the sprite right anchor caps the new width at the bitmap's natural width and ignores the crop's x | a sprite at x 50, 250 px wide, crop from column 50, 300 px bitmap, right anchor dragged to 340: the crop ends at column 340 | the width is capped at the bitmap width left after the crop's x, as the old editor does | not executed | SpriteRight.SpriteRightOverflows | SpriteRight.ClampedSpriteRightBound |
| src/Konva.js:181-209 | the left anchor computes the clamped x `max(0, pos.x)` but uses it only in the first guard, and moves the image to the raw candidate x | an image at x 10, 250 px wide, crop from column 50, 300 px bitmap, left anchor dragged to −20: the image is placed at x −20 | the image's left edge goes to the clamped x, so the image stays on the stage | not executed | SpriteLeft.LeftBoundLeavesStage | SpriteLeft.ClampedLeftBound |

=== FILE: anchor_handler.dfy ===
/** The `AnchorHandler` class: a clipped group (sprite image or waveform
    bars) with an outline frame and two 10x10 anchors, all positioned
    relative to the group. Dragging an anchor moves it along the group's top
    edge and resizes the clip window and the frame to match; dragging the
    group itself optionally snaps it to a `SnapHandler`'s row grid.

    The handlers read the anchor's position after the library has moved it
    to the pointer, so each is modelled as a function of the handler and the
    candidate position of the dragged anchor. */
module AnchorHandler {
  import opened Geometry
  import RowSnap
  import DrawOrder

  /** Smallest distance kept between the left edges of the two anchors. */
  const MinGap: real := 20.0

  /** A draggable group: its position on the layer, its size (the full width
      of its content) and its clip window in group coordinates. */
  datatype Group = Group(pos: Point, width: real, height: real, clipX: real, clipWidth: real)

  /** The outline frame, in group coordinates. */
  datatype Frame = Frame(x: real, y: real, width: real, height: real)

  /** The group with its frame and its right and left anchors. */
  datatype Handler = Handler(group: Group, frame: Frame, right: Point, left: Point)

  /** The layer's children and the group's children, back to front. */
  datatype Scene = Scene(layer: seq<DrawOrder.Node>, children: seq<DrawOrder.Node>)

  /** The shape every handler keeps: the frame covers the clip window, the
      left anchor sits at the clip's left edge, the right anchor's right edge
      at the clip's right edge, both anchors on the top edge and at least
      `MinGap` apart. */
  predicate Glued(h: Handler) {
    && h.left.y == 0.0 && h.right.y == 0.0
    && h.frame.x == h.group.clipX == h.left.x
    && h.frame.width == h.group.clipWidth
    && h.group.clipX + h.group.clipWidth == h.right.x + HandleWidth
    && h.right.x - h.left.x >= MinGap
  }

  /** Constructor of the snapping and reusable variants: a frame as wide as
      the requested clip, the right anchor just inside its right edge and the
      left anchor at the group's origin. */
  function Create(group: Group, height: real, clipWidth: real): (h: Handler)
    ensures h.group == group
    ensures h.frame == Frame(0.0, 0.0, clipWidth, height)
    ensures h.right == Point(clipWidth - HandleWidth, 0.0) && h.left == Point(0.0, 0.0)
  {
    Handler(group, Frame(0.0, 0.0, clipWidth, height), Point(clipWidth - 10.0, 0.0), Point(0.0, 0.0))
  }

  /** A new handler on a group clipped from its origin to `clipWidth` is
      glued as soon as the clip leaves room for the anchor gap. */
  lemma CreateGlued(group: Group, height: real, clipWidth: real)
    requires group.clipX == 0.0 && group.clipWidth == clipWidth
    ensures Glued(Create(group, height, clipWidth)) <==> clipWidth >= MinGap + HandleWidth
  {
  }

  /** Constructor of the clipping variant: the frame covers the whole group
      and the right anchor sits just inside the group's right edge. */
  function CreateOnGroup(group: Group): (h: Handler)
    ensures h.group == group
    ensures h.frame == Frame(0.0, 0.0, group.width, group.height)
    ensures h.right == Point(group.width - HandleWidth, 0.0) && h.left == Point(0.0, 0.0)
  {
    Handler(group, Frame(0.0, 0.0, group.width, group.height),
            Point(group.width - 10.0, 0.0), Point(0.0, 0.0))
  }

  /** A group clipped to its full width gets a glued handler when it is at
      least 30 px wide. */
  lemma CreateOnGroupGlued(group: Group)
    requires group.clipX == 0.0 && group.clipWidth == group.width
    ensures Glued(CreateOnGroup(group)) <==> group.width >= MinGap + HandleWidth
  {
  }

  /** `handleRightDrag`: pin the anchor to the top edge, cap it at the
      group's right edge, then push it back to `MinGap` from the left anchor
      (the gap wins when both cannot hold); the clip window and the frame are
      widened or narrowed to end at the anchor's right edge, the clip's x is
      not written. */
  function RightDrag(h: Handler, candidate: Point): (r: Handler)
    ensures r.left == h.left && r.right.y == 0.0
    ensures r.right.x == Max(h.left.x + MinGap, Min(candidate.x, h.group.width - HandleWidth))
    ensures r.group == h.group.(clipWidth := r.right.x + HandleWidth - h.group.clipX)
    ensures r.frame == h.frame.(width := r.group.clipWidth)
  {
    var maxRightX := h.group.width - 10.0;
    var x0 := candidate.x;
    var x1 := if x0 >= maxRightX then maxRightX else x0;
    var x2 := if x1 - h.left.x <= 20.0 then h.left.x + 20.0 else x1;
    var newWidth := x2 + 10.0 - h.group.clipX;
    Handler(h.group.(clipWidth := newWidth), h.frame.(width := newWidth), Point(x2, 0.0), h.left)
  }

  /** `handleLeftDrag`: pin the anchor to the top edge, floor it at the
      group's origin, then push it back to `MinGap` from the right anchor
      (the gap wins); the clip window and the frame start at the anchor and
      keep ending at the right anchor's right edge. */
  function LeftDrag(h: Handler, candidate: Point): (r: Handler)
    ensures r.right == h.right && r.left.y == 0.0
    ensures r.left.x == Min(h.right.x - MinGap, Max(candidate.x, 0.0))
    ensures r.group == h.group.(clipX := r.left.x, clipWidth := h.right.x + HandleWidth - r.left.x)
    ensures r.frame == h.frame.(x := r.left.x, width := r.group.clipWidth)
  {
    var x0 := candidate.x;
    var x1 := if x0 <= 0.0 then 0.0 else x0;
    var x2 := if h.right.x - x1 <= 20.0 then h.right.x - 20.0 else x1;
    var newWidth := h.right.x + 10.0 - x2;
    Handler(h.group.(clipX := x2, clipWidth := newWidth), h.frame.(x := x2, width := newWidth),
            h.right, Point(x2, 0.0))
  }

  /** After a right drag the anchors are at least `MinGap` apart, and the
      right anchor stays inside the group whenever the gap leaves room. */
  lemma RightDragBounds(h: Handler, candidate: Point)
    ensures RightDrag(h, candidate).right.x - h.left.x >= MinGap
    ensures h.left.x + MinGap <= h.group.width - HandleWidth ==>
              RightDrag(h, candidate).right.x <= h.group.width - HandleWidth
  {
  }

  /** A right-anchor position that already respects the gap and the group's
      edge is kept as it is, and a second drag to the corrected position
      changes nothing. */
  lemma RightDragIdempotent(h: Handler, candidate: Point)
    ensures h.left.x + MinGap <= candidate.x <= h.group.width - HandleWidth ==>
              RightDrag(h, candidate).right == candidate.(y := 0.0)
    ensures RightDrag(RightDrag(h, candidate), RightDrag(h, candidate).right) == RightDrag(h, candidate)
  {
  }

  /** After a left drag the anchors are at least `MinGap` apart, and the left
      anchor stays inside the group whenever the right anchor leaves room. */
  lemma LeftDragBounds(h: Handler, candidate: Point)
    ensures h.right.x - LeftDrag(h, candidate).left.x >= MinGap
    ensures h.right.x >= MinGap ==> LeftDrag(h, candidate).left.x >= 0.0
  {
  }

  /** A left-anchor position that already respects the gap and the group's
      origin is kept as it is, and a second drag to the corrected position
      changes nothing. */
  lemma LeftDragIdempotent(h: Handler, candidate: Point)
    ensures 0.0 <= candidate.x <= h.right.x - MinGap ==>
              LeftDrag(h, candidate).left == candidate.(y := 0.0)
    ensures LeftDrag(LeftDrag(h, candidate), LeftDrag(h, candidate).left) == LeftDrag(h, candidate)
  {
  }

  /** Both anchor drags keep a handler glued. */
  lemma DragsKeepGlued(h: Handler, candidate: Point)
    requires Glued(h)
    ensures Glued(RightDrag(h, candidate))
    ensures Glued(LeftDrag(h, candidate))
  {
  }

  /** One anchor drag event, with the candidate position of the anchor. */
  datatype AnchorDrag = DragRight(to: Point) | DragLeft(to: Point)

  /** The dragged anchor's own `dragmove` handler: one step of a resize,
      which keeps the handler glued and never moves or resizes the group. */
  function Resize(h: Handler, d: AnchorDrag): (r: Handler)
    ensures d.DragRight? ==> r == RightDrag(h, d.to)
    ensures d.DragLeft? ==> r == LeftDrag(h, d.to)
    ensures Glued(h) ==> Glued(r)
    ensures r.group.pos == h.group.pos && r.group.width == h.group.width && r.group.height == h.group.height
  {
    match d
    case DragRight(p) => RightDrag(h, p)
    case DragLeft(p) => LeftDrag(h, p)
  }

  /** A sequence of anchor drags, one `dragmove` event after another: the
      handler stays glued after every step, so the anchors never come closer
      than `MinGap`, and the group itself is never moved or resized. */
  method ApplyDrags(h: Handler, drags: seq<AnchorDrag>) returns (t: Handler)
    requires Glued(h)
    ensures Glued(t)
    ensures t.right.x - t.left.x >= MinGap
    ensures t.group.pos == h.group.pos && t.group.width == h.group.width
    ensures t.group.height == h.group.height
  {
    t := h;
    var i := 0;
    while i < |drags|
      invariant 0 <= i <= |drags|
      invariant Glued(t)
      invariant t.group.pos == h.group.pos && t.group.width == h.group.width
      invariant t.group.height == h.group.height
    {
      DragsKeepGlued(t, drags[i].to);
      t := Resize(t, drags[i]);
      i := i + 1;
    }
  }

  /** The group and its snap handler after a group drag event. */
  datatype Snapped = Snapped(handler: Handler, snap: RowSnap.SnapHandler)

  /** Group `dragmove`: the group is where the pointer put it, and the shared
      indicator marks the row that contains the group's top. */
  function GroupDragMove(h: Handler, sh: RowSnap.SnapHandler, to: Point): (r: Snapped)
    requires sh.rowHeight > 0.0
    ensures r.handler == h.(group := h.group.(pos := to))
    ensures r.snap.rowHeight == sh.rowHeight && r.snap.layerWidth == sh.layerWidth
    ensures r.snap.indicator.visible
    ensures r.snap.indicator.x == 0.0 && r.snap.indicator.width == sh.layerWidth
    ensures r.snap.indicator.height == sh.rowHeight
    ensures RowSnap.OnGrid(r.snap.indicator.y, sh.rowHeight)
    ensures r.snap.indicator.y <= to.y < r.snap.indicator.y + sh.rowHeight
  {
    Snapped(h.(group := h.group.(pos := to)), RowSnap.ShowIndicator(sh, to.y))
  }

  /** Group `dragend`: the group drops to the top of the row it is in and the
      indicator is hidden; nothing but the group's y changes. */
  function GroupDragEnd(h: Handler, sh: RowSnap.SnapHandler): (r: Snapped)
    requires sh.rowHeight > 0.0
    ensures r.handler == h.(group := h.group.(pos := h.group.pos.(y := r.handler.group.pos.y)))
    ensures RowSnap.OnGrid(r.handler.group.pos.y, sh.rowHeight)
    ensures r.handler.group.pos.y <= h.group.pos.y < r.handler.group.pos.y + sh.rowHeight
    ensures !r.snap.indicator.visible
  {
    var row := Floor(h.group.pos.y / sh.rowHeight);
    var y := row as real * sh.rowHeight;
    assert y == RowSnap.FloorSnap(h.group.pos.y, sh.rowHeight);
    Snapped(h.(group := h.group.(pos := h.group.pos.(y := y))), RowSnap.HideIndicator(sh))
  }

  /** The row the indicator marks during the drag is the row the group lands
      on at release, a second release changes nothing, and the handler's own
      shape is untouched by moving and snapping the group. */
  lemma ReleaseLandsOnIndicator(h: Handler, sh: RowSnap.SnapHandler, to: Point)
    requires sh.rowHeight > 0.0
    ensures var moved := GroupDragMove(h, sh, to);
            var released := GroupDragEnd(moved.handler, moved.snap);
            && released.handler.group.pos.y == moved.snap.indicator.y
            && released.handler.group.pos.x == to.x
            && GroupDragEnd(released.handler, released.snap) == released
            && (Glued(h) ==> Glued(released.handler))
  {
    var moved := GroupDragMove(h, sh, to);
    var released := GroupDragEnd(moved.handler, moved.snap);
    RowSnap.FloorSnapIdempotent(to.y, sh.rowHeight);
    assert released.snap.indicator == moved.snap.indicator.(visible := false);
  }

  /** Anchor `dragmove` in the snapping variant. The anchors are children
      of the group and drag events bubble, so the group's own `dragmove`
      handler runs after the anchor's: the group is resized but not moved,
      and the indicator is shown on the row that holds the group's top. */
  function AnchorDragMove(h: Handler, sh: RowSnap.SnapHandler, d: AnchorDrag): (r: Snapped)
    requires sh.rowHeight > 0.0
    ensures r.handler == Resize(h, d)
    ensures r.handler.group.pos == h.group.pos
    ensures r.snap.rowHeight == sh.rowHeight && r.snap.layerWidth == sh.layerWidth
    ensures r.snap.indicator.visible
    ensures r.snap.indicator.x == 0.0 && r.snap.indicator.width == sh.layerWidth
    ensures r.snap.indicator.height == sh.rowHeight
    ensures RowSnap.OnGrid(r.snap.indicator.y, sh.rowHeight)
    ensures r.snap.indicator.y <= h.group.pos.y < r.snap.indicator.y + sh.rowHeight
  {
    var resized := Resize(h, d);
    Snapped(resized, RowSnap.ShowIndicator(sh, resized.group.pos.y))
  }

  /** Releasing an anchor in the snapping variant: its `dragend` bubbles to
      the group, whose handler drops the group to the top of its row. The
      resize is kept, the handler stays glued, and the group lands on the
      row the indicator showed while the anchor moved. */
  lemma AnchorReleaseSnapsGroup(h: Handler, sh: RowSnap.SnapHandler, d: AnchorDrag)
    requires sh.rowHeight > 0.0 && Glued(h)
    ensures var moved := AnchorDragMove(h, sh, d);
            var released := GroupDragEnd(moved.handler, moved.snap);
            var resized := Resize(h, d);
            && Glued(released.handler)
            && released.handler
               == resized.(group := resized.group.(pos := h.group.pos.(y := RowSnap.FloorSnap(h.group.pos.y, sh.rowHeight))))
            && released.handler.group.pos.y == moved.snap.indicator.y
            && !released.snap.indicator.visible
  {
    DragsKeepGlued(h, d.to);
    var moved := AnchorDragMove(h, sh, d);
    var released := GroupDragEnd(moved.handler, moved.snap);
    RowSnap.FloorSnapUnique(h.group.pos.y, sh.rowHeight, released.handler.group.pos.y);
    RowSnap.FloorSnapUnique(h.group.pos.y, sh.rowHeight, moved.snap.indicator.y);
  }

  /** The snapping editor builds its group at (10, 10) with rows 200 high,
      so the first anchor release lifts the whole group to y = 0. */
  lemma FirstAnchorReleaseLifts(sh: RowSnap.SnapHandler, d: AnchorDrag, width: real)
    requires sh.rowHeight == 200.0
    ensures var g := Group(Point(10.0, 10.0), width, 200.0, 0.0, width);
            var moved := AnchorDragMove(Create(g, 200.0, width), sh, d);
            GroupDragEnd(moved.handler, moved.snap).handler.group.pos == Point(10.0, 0.0)
  {
    var g := Group(Point(10.0, 10.0), width, 200.0, 0.0, width);
    var moved := AnchorDragMove(Create(g, 200.0, width), sh, d);
    RowSnap.FloorSnapUnique(10.0, 200.0, 0.0);
    RowSnap.FloorSnapUnique(10.0, 200.0, GroupDragEnd(moved.handler, moved.snap).handler.group.pos.y);
  }

  /** Group `dragstart`: the group goes to the top of the layer, then its
      frame, right anchor and left anchor go to the top of the group, in that
      order. */
  function DragStart(s: Scene, id: nat): (r: Scene)
    ensures DrawOrder.Region(id) in s.layer ==> |r.layer| > 0 && r.layer[|r.layer| - 1] == DrawOrder.Region(id)
    ensures DrawOrder.Region(id) !in s.layer ==> r.layer == s.layer
  {
    var layer := DrawOrder.MoveToTop(s.layer, DrawOrder.Region(id));
    var children := DrawOrder.BringToFront(s.children,
      [DrawOrder.Frame(id), DrawOrder.RightAnchor(id), DrawOrder.LeftAnchor(id)]);
    Scene(layer, children)
  }

  /** After `dragstart` the group is drawn last on the layer and the left
      anchor is drawn last in the group, over the right anchor, over the
      frame, over all other content, which keeps its order. */
  lemma DragStartOrder(s: Scene, id: nat)
    requires DrawOrder.Distinct(s.layer) && DrawOrder.Distinct(s.children)
    requires DrawOrder.Region(id) in s.layer
    requires DrawOrder.Frame(id) in s.children && DrawOrder.RightAnchor(id) in s.children
    requires DrawOrder.LeftAnchor(id) in s.children
    ensures var r := DragStart(s, id);
            var top := [DrawOrder.Frame(id), DrawOrder.RightAnchor(id), DrawOrder.LeftAnchor(id)];
            && r.layer == DrawOrder.Keep(s.layer, {DrawOrder.Region(id)}) + [DrawOrder.Region(id)]
            && r.children == DrawOrder.Keep(s.children, DrawOrder.Elements(top)) + top
  {
    var top := [DrawOrder.Frame(id), DrawOrder.RightAnchor(id), DrawOrder.LeftAnchor(id)];
    DrawOrder.BringToFrontOrder(s.children, top);
  }

  /** The constructor of the snapping and reusable variants adds the
      frame and the two anchors after whatever the group already holds and
      then raises them in that order, which leaves the order as it was:
      content, frame, right anchor, left anchor. */
  lemma {:induction false} CreateRaiseKeepsOrder(content: seq<DrawOrder.Node>, id: nat)
    requires forall n :: n in content ==> n.Content?
    requires DrawOrder.Distinct(content + [DrawOrder.Frame(id), DrawOrder.RightAnchor(id), DrawOrder.LeftAnchor(id)])
    ensures var top := [DrawOrder.Frame(id), DrawOrder.RightAnchor(id), DrawOrder.LeftAnchor(id)];
            DrawOrder.BringToFront(content + top, top) == content + top
  {
    var top := [DrawOrder.Frame(id), DrawOrder.RightAnchor(id), DrawOrder.LeftAnchor(id)];
    var moved := DrawOrder.Elements(top);
    DrawOrder.ElementsOfThree(top);
    assert DrawOrder.Distinct(top) by {
      var all := content + top;
      forall i, j | 0 <= i < j < |top| ensures top[i] != top[j] {
        assert top[i] == all[|content| + i] && top[j] == all[|content| + j];
      }
    }
    DrawOrder.BringToFrontOrder(content + top, top);
    DrawOrder.KeepAppend(content, top, moved);
    DrawOrder.KeepNothing(content, moved);
    DrawOrder.KeepAll(top, moved);
  }

  /** At the three waveform call sites the handler is built on a group
      that is still empty, and the bars are added to the group afterwards.
      The snapping and reusable constructors' raise then changes nothing,
      the clipping constructor's `moveToBottom` finds the frame already at
      the bottom, and in all three the frame and both anchors are drawn
      under every bar until the first `dragstart`. The sprite call sites
      add the image first; `CreateRaiseKeepsOrder` covers those. */
  lemma CreateOnEmptyGroupOrder(bars: seq<DrawOrder.Node>, id: nat)
    ensures var top := [DrawOrder.Frame(id), DrawOrder.RightAnchor(id), DrawOrder.LeftAnchor(id)];
            && DrawOrder.BringToFront(top, top) + bars == top + bars
            && DrawOrder.MoveToBottom([DrawOrder.Frame(id)], DrawOrder.Frame(id))
                 + [DrawOrder.RightAnchor(id), DrawOrder.LeftAnchor(id)] + bars == top + bars
  {
    var top := [DrawOrder.Frame(id), DrawOrder.RightAnchor(id), DrawOrder.LeftAnchor(id)];
    assert [] + top == top;
    CreateRaiseKeepsOrder([], id);
    DrawOrder.FrameToBottom([], id);
    assert [] + [DrawOrder.Frame(id)] == [DrawOrder.Frame(id)] == [DrawOrder.Frame(id)] + [];
    assert [DrawOrder.Frame(id)] + [DrawOrder.RightAnchor(id), DrawOrder.LeftAnchor(id)] == top;
  }

  /** Group `dragstart` of the clipping variant: the group goes to the top of
      the layer, then its right and left anchors to the top of the group. */
  function ClipDragStart(s: Scene, id: nat): (r: Scene)
    ensures DrawOrder.Region(id) in s.layer ==> |r.layer| > 0 && r.layer[|r.layer| - 1] == DrawOrder.Region(id)
    ensures DrawOrder.Region(id) !in s.layer ==> r.layer == s.layer
  {
    var layer := DrawOrder.MoveToTop(s.layer, DrawOrder.Region(id));
    var children := DrawOrder.BringToFront(s.children,
      [DrawOrder.RightAnchor(id), DrawOrder.LeftAnchor(id)]);
    Scene(layer, children)
  }

  /** After the clipping variant's `dragstart` the left anchor is drawn over
      the right anchor, over everything else in the group. */
  lemma ClipDragStartOrder(s: Scene, id: nat)
    requires DrawOrder.Distinct(s.children)
    requires DrawOrder.RightAnchor(id) in s.children && DrawOrder.LeftAnchor(id) in s.children
    ensures var top := [DrawOrder.RightAnchor(id), DrawOrder.LeftAnchor(id)];
            ClipDragStart(s, id).children == DrawOrder.Keep(s.children, DrawOrder.Elements(top)) + top
  {
    DrawOrder.BringToFrontOrder(s.children, [DrawOrder.RightAnchor(id), DrawOrder.LeftAnchor(id)]);
  }
}

=== FILE: draw_order.dfy ===
/** Draw order of a container's children, back to front, as a list: the
    last element is drawn on top. `moveToTop` and `moveToBottom` are
    modelled, and a bring-to-front sequence of several `moveToTop` calls. */
module DrawOrder {

  /** The nodes a layer or group holds: a region (image or group), its
      outline frame, its two anchors, any other content (waveform bars, the
      image inside a group) and the snap indicator. */
  datatype Node =
    | Region(id: nat)
    | Frame(id: nat)
    | RightAnchor(id: nat)
    | LeftAnchor(id: nat)
    | Content(id: nat)
    | SnapIndicator

  /** No node occurs twice among a container's children. */
  predicate Distinct(s: seq<Node>) {
    forall i, j :: 0 <= i < j < |s| ==> s[i] != s[j]
  }

  /** The nodes of `order` outside `moved`, in their original order. */
  function Keep(order: seq<Node>, moved: set<Node>): seq<Node>
  {
    if order == [] then []
    else (if order[0] in moved then [] else [order[0]]) + Keep(order[1..], moved)
  }

  lemma {:induction false} KeepMembers(order: seq<Node>, moved: set<Node>, n: Node)
    ensures n in Keep(order, moved) <==> n in order && n !in moved
  {
    if order != [] {
      KeepMembers(order[1..], moved, n);
      assert order == [order[0]] + order[1..];
    }
  }

  lemma {:induction false} KeepAppend(a: seq<Node>, b: seq<Node>, moved: set<Node>)
    ensures Keep(a + b, moved) == Keep(a, moved) + Keep(b, moved)
  {
    if a == [] {
      assert a + b == b;
    } else {
      assert (a + b)[1..] == a[1..] + b;
      KeepAppend(a[1..], b, moved);
    }
  }

  lemma {:induction false} KeepNothing(order: seq<Node>, moved: set<Node>)
    requires forall n :: n in order ==> n !in moved
    ensures Keep(order, moved) == order
  {
    if order != [] {
      KeepNothing(order[1..], moved);
    }
  }

  lemma {:induction false} KeepAll(order: seq<Node>, moved: set<Node>)
    requires forall n :: n in order ==> n in moved
    ensures Keep(order, moved) == []
  {
    if order != [] {
      assert order[0] in order;
      assert forall n :: n in order[1..] ==> n in order;
      KeepAll(order[1..], moved);
    }
  }

  lemma {:induction false} KeepTwice(order: seq<Node>, a: set<Node>, b: set<Node>)
    ensures Keep(Keep(order, a), b) == Keep(order, a + b)
  {
    if order != [] {
      var head := if order[0] in a then [] else [order[0]];
      KeepAppend(head, Keep(order[1..], a), b);
      KeepTwice(order[1..], a, b);
    }
  }

  lemma {:induction false} KeepDistinct(order: seq<Node>, moved: set<Node>)
    requires Distinct(order)
    ensures Distinct(Keep(order, moved))
  {
    if order != [] {
      var rest := order[1..];
      assert Distinct(rest) by {
        forall a, b | 0 <= a < b < |rest| ensures rest[a] != rest[b] {
          assert rest[a] == order[a + 1] && rest[b] == order[b + 1];
        }
      }
      KeepDistinct(rest, moved);
      var tail := Keep(rest, moved);
      if order[0] !in moved {
        KeepMembers(rest, moved, order[0]);
        assert order[0] !in rest by {
          forall k | 0 <= k < |rest| ensures rest[k] != order[0] {
            assert rest[k] == order[k + 1];
          }
        }
        var r := [order[0]] + tail;
        forall a, b | 0 <= a < b < |r| ensures r[a] != r[b] {
          if a == 0 {
            assert r[b] == tail[b - 1];
          } else {
            assert r[a] == tail[a - 1] && r[b] == tail[b - 1];
          }
        }
      } else {
        assert Keep(order, moved) == tail;
      }
    }
  }

  /** `moveToTop()`: the node is taken out of its place and appended, so it
      is drawn last; a node that is not a child leaves the order alone. */
  function MoveToTop(order: seq<Node>, n: Node): (r: seq<Node>)
    ensures n in order ==> |r| > 0 && r[|r| - 1] == n
    ensures n !in order ==> r == order
  {
    if n !in order then order else Keep(order, {n}) + [n]
  }

  /** The nodes of `ns` as a set. */
  function Elements(ns: seq<Node>): set<Node>
  {
    if ns == [] then {} else {ns[0]} + Elements(ns[1..])
  }

  lemma {:induction false} ElementsMembers(ns: seq<Node>, n: Node)
    ensures n in Elements(ns) <==> n in ns
  {
    if ns != [] {
      ElementsMembers(ns[1..], n);
      assert ns == [ns[0]] + ns[1..];
    }
  }

  /** One `moveToTop()` per node of `ns`, in order. */
  function BringToFront(order: seq<Node>, ns: seq<Node>): seq<Node>
    decreases |ns|
  {
    if ns == [] then order else BringToFront(MoveToTop(order, ns[0]), ns[1..])
  }

  /** After one `moveToTop()` the children are still distinct and still hold
      every other node. */
  lemma MoveToTopStep(order: seq<Node>, n: Node, rest: seq<Node>)
    requires Distinct(order) && n in order
    requires forall m :: m in rest ==> m in order && m != n
    ensures Distinct(MoveToTop(order, n))
    ensures forall m :: m in rest ==> m in MoveToTop(order, n)
  {
    var kept := Keep(order, {n});
    KeepDistinct(order, {n});
    KeepMembers(order, {n}, n);
    var moved := kept + [n];
    forall i, j | 0 <= i < j < |moved| ensures moved[i] != moved[j] {
      if j == |moved| - 1 {
        assert moved[i] == kept[i];
        assert kept[i] in kept;
      } else {
        assert moved[i] == kept[i] && moved[j] == kept[j];
      }
    }
    forall m | m in rest ensures m in moved {
      KeepMembers(order, {n}, m);
    }
  }

  lemma DistinctTail(ns: seq<Node>)
    requires Distinct(ns) && ns != []
    ensures Distinct(ns[1..])
    ensures forall m :: m in ns[1..] ==> m in ns && m != ns[0]
  {
    var rest := ns[1..];
    forall a, b | 0 <= a < b < |rest| ensures rest[a] != rest[b] {
      assert rest[a] == ns[a + 1] && rest[b] == ns[b + 1];
    }
    forall m | m in rest ensures m in ns && m != ns[0] {
      var k :| 0 <= k < |rest| && rest[k] == m;
      assert ns[k + 1] == m;
    }
  }

  lemma KeepAfterMove(order: seq<Node>, n: Node, later: set<Node>)
    requires n in order && n !in later
    ensures Keep(MoveToTop(order, n), later) == Keep(order, {n} + later) + [n]
  {
    KeepAppend(Keep(order, {n}), [n], later);
    KeepTwice(order, {n}, later);
    assert Keep([n][1..], later) == [];
  }

  /** Bringing distinct children `ns` to the front puts them on top of
      everything else in the order given, the last of them topmost, while the
      remaining nodes keep their relative order. */
  lemma {:induction false} BringToFrontOrder(order: seq<Node>, ns: seq<Node>)
    requires Distinct(order) && Distinct(ns)
    requires forall n :: n in ns ==> n in order
    ensures BringToFront(order, ns) == Keep(order, Elements(ns)) + ns
    decreases |ns|
  {
    if ns == [] {
      KeepNothing(order, {});
      assert order + ns == order;
    } else {
      var n, rest := ns[0], ns[1..];
      DistinctTail(ns);
      MoveToTopStep(order, n, rest);
      BringToFrontOrder(MoveToTop(order, n), rest);
      FrontStep(order, ns);
    }
  }

  /** One step of the induction: the first node goes to the top, then the
      others are stacked above it. */
  lemma FrontStep(order: seq<Node>, ns: seq<Node>)
    requires ns != [] && ns[0] in order && ns[0] !in ns[1..]
    requires BringToFront(MoveToTop(order, ns[0]), ns[1..])
          == Keep(MoveToTop(order, ns[0]), Elements(ns[1..])) + ns[1..]
    ensures BringToFront(order, ns) == Keep(order, Elements(ns)) + ns
  {
    var n, rest := ns[0], ns[1..];
    var later := Elements(rest);
    ElementsMembers(rest, n);
    KeepAfterMove(order, n, later);
    ElementsCons(ns);
    ConsAppend(Keep(order, {n} + later), ns);
  }

  lemma ElementsCons(ns: seq<Node>)
    requires ns != []
    ensures Elements(ns) == {ns[0]} + Elements(ns[1..])
  {
  }

  lemma ConsAppend(kept: seq<Node>, ns: seq<Node>)
    requires ns != []
    ensures kept + [ns[0]] + ns[1..] == kept + ns
  {
    assert [ns[0]] + ns[1..] == ns;
  }

  /** `moveToTop()` on a region, then on its right anchor, then on its left
      anchor: what the `dragstart` handlers of the sprites and of the
      waveform group do on the layer, and what every right-anchor bound
      function does before it runs. */
  function RaiseRegion(order: seq<Node>, id: nat): seq<Node>
  {
    BringToFront(order, [Region(id), RightAnchor(id), LeftAnchor(id)])
  }

  /** `moveToTop()` on a region, then on its left anchor, then on its right
      anchor, as every left-anchor bound function of the sprites does. */
  function RaiseRegionLeftFirst(order: seq<Node>, id: nat): seq<Node>
  {
    BringToFront(order, [Region(id), LeftAnchor(id), RightAnchor(id)])
  }

  /** The region and its anchors end up drawn over every other node, the
      left anchor topmost, and the other nodes keep their order. */
  lemma RaiseRegionOrder(order: seq<Node>, id: nat)
    requires Distinct(order)
    requires Region(id) in order && RightAnchor(id) in order && LeftAnchor(id) in order
    ensures RaiseRegion(order, id)
         == Keep(order, {Region(id), RightAnchor(id), LeftAnchor(id)})
            + [Region(id), RightAnchor(id), LeftAnchor(id)]
  {
    var top := [Region(id), RightAnchor(id), LeftAnchor(id)];
    BringToFrontOrder(order, top);
    ElementsOfThree(top);
  }

  /** During a left-anchor drag the right anchor is drawn topmost, over the
      left anchor, over the region, over every other node. */
  lemma RaiseRegionLeftFirstOrder(order: seq<Node>, id: nat)
    requires Distinct(order)
    requires Region(id) in order && RightAnchor(id) in order && LeftAnchor(id) in order
    ensures RaiseRegionLeftFirst(order, id)
         == Keep(order, {Region(id), RightAnchor(id), LeftAnchor(id)})
            + [Region(id), LeftAnchor(id), RightAnchor(id)]
  {
    var top := [Region(id), LeftAnchor(id), RightAnchor(id)];
    BringToFrontOrder(order, top);
    ElementsOfThree(top);
    assert Elements(top) == {Region(id), RightAnchor(id), LeftAnchor(id)};
  }

  lemma ElementsOfThree(ns: seq<Node>)
    requires |ns| == 3
    ensures Elements(ns) == {ns[0], ns[1], ns[2]}
  {
    var t := ns[1..];
    var u := t[1..];
    assert t[0] == ns[1] && u[0] == ns[2] && u[1..] == [];
    ElementsCons(ns);
    ElementsCons(t);
    ElementsCons(u);
    assert Elements(u) == {ns[2]};
  }

  /** `moveToBottom()`: the node is taken out of its place and put first,
      so it is drawn under every other child. */
  function MoveToBottom(order: seq<Node>, n: Node): (r: seq<Node>)
    ensures n in order ==> |r| > 0 && r[0] == n
    ensures n !in order ==> r == order
  {
    if n !in order then order else [n] + Keep(order, {n})
  }

  /** A frame added last and then sent to the bottom ends under all the
      content that was there before, which keeps its order. */
  lemma {:induction false} FrameToBottom(content: seq<Node>, id: nat)
    requires Frame(id) !in content
    ensures MoveToBottom(content + [Frame(id)], Frame(id)) == [Frame(id)] + content
  {
    KeepAppend(content, [Frame(id)], {Frame(id)});
    KeepNothing(content, {Frame(id)});
    assert Keep([Frame(id)], {Frame(id)}) == [] by {
      assert [Frame(id)][1..] == [];
    }
  }
}

=== FILE: geometry.dfy ===
/** Plain value types shared by every drag handler, and the few JavaScript
    `Math` functions the handlers call, on real-valued pixel coordinates. */
module Geometry {

  /** A node position: absolute on the layer, or relative to the group that
      owns the node for the group-based handlers. */
  datatype Point = Point(x: real, y: real)

  /** The stage extent a region body is kept inside. */
  datatype Stage = Stage(width: real, height: real)

  /** Width of every anchor rectangle in the editors. */
  const HandleWidth: real := 10.0

  /** `Math.min` of two finite numbers. */
  function Min(a: real, b: real): (r: real)
    ensures r <= a && r <= b
    ensures r == a || r == b
  {
    if a <= b then a else b
  }

  /** `Math.max` of two finite numbers. */
  function Max(a: real, b: real): (r: real)
    ensures r >= a && r >= b
    ensures r == a || r == b
  {
    if a >= b then a else b
  }

  /** `Math.floor`: the greatest integer not above `v`. */
  function Floor(v: real): (n: int)
    ensures n as real <= v < n as real + 1.0
  {
    v.Floor
  }

  /** `Math.round`: the nearest integer, halves rounding up (towards +infinity). */
  function Round(v: real): (n: int)
    ensures v - 0.5 < n as real <= v + 0.5
  {
    (v + 0.5).Floor
  }

  /** Multiplying both sides of `a <= b` by a positive factor. */
  lemma MulMono(a: real, b: real, h: real)
    requires a <= b && h > 0.0
    ensures a * h <= b * h
  {
    assert b * h - a * h == (b - a) * h;
  }

  /** Multiplying both sides of `a < b` by a positive factor. */
  lemma MulStrictMono(a: real, b: real, h: real)
    requires a < b && h > 0.0
    ensures a * h < b * h
  {
    assert b * h - a * h == (b - a) * h;
  }
}

=== FILE: inline_region.dfy ===
/** The anchor bound functions of the reusable image helper and of the
    waveform generator component. They share the body handlers of `Sprite`
    but never raise anything to the top, hand back the candidate position
    itself (so the anchors are not held on the image's row), and always
    crop from bitmap column 0. */
module InlineRegion {
  import opened Geometry
  import opened Sprite
  import SpriteRight

  /** Right anchor: the width is the candidate's distance from the image's
      left edge, capped at the natural width; under `MinWidth` the anchor is
      held `MinWidth` right of the left edge, at the candidate's own y; it
      accepts the same candidates as the sprite right anchor
      (`SpriteRight.Accepts`). An accepted drag resets the crop to start at column 0. */
  function InlineRight(r: Region, pos: Point): (b: Bounded)
    ensures b.region.right.pos == b.pos
    ensures !SpriteRight.Accepts(r.image, pos) ==>
              b.region.image == r.image && b.region.left == r.left
              && b.pos == Point(r.image.pos.x + MinWidth, pos.y)
    ensures SpriteRight.Accepts(r.image, pos) ==>
              && b.pos == pos
              && b.region.image.pos == r.image.pos
              && b.region.image.width == b.region.image.crop.width == Min(r.image.natural, pos.x - r.image.pos.x)
              && b.region.image.crop.x == 0.0
              && b.region.image.crop.x + b.region.image.crop.width <= r.image.natural
              && b.region.left == GlueLeft(b.region.image, Flush)
  {
    var img := r.image;
    var newWidth := Min(img.natural, pos.x - img.pos.x);
    if newWidth < 30.0 then
      var p := Point(img.pos.x + 30.0, pos.y);
      Bounded(p, r.(right := r.right.(pos := p)))
    else
      var resized := img.(width := newWidth, crop := Crop(0.0, 0.0, newWidth, img.height));
      var glued := UpdateAnchors(r.(image := resized), Flush);
      Bounded(pos, glued.(right := glued.right.(pos := pos)))
  }

  /** Left anchor as written: the image's left edge goes to the candidate's
      x and its right edge stays, but the crop's left column is computed
      after the image has moved and so is always 0. Under `MinWidth` the
      anchor is held `MinWidth` left of the right edge at the candidate's
      y. There is no cap: dragging left can make the image wider than its
      bitmap. */
  function InlineLeft(r: Region, pos: Point): (b: Bounded)
    ensures b.region.left.pos == b.pos
    ensures r.image.width + (r.image.pos.x - pos.x) < MinWidth ==>
              b.region.image == r.image && b.region.right == r.right
              && b.pos == Point(RightEdge(r.image) - MinWidth, pos.y)
    ensures r.image.width + (r.image.pos.x - pos.x) >= MinWidth ==>
              && b.pos == pos
              && b.region.image.pos == Point(pos.x, r.image.pos.y)
              && RightEdge(b.region.image) == RightEdge(r.image)
              && b.region.image.width == b.region.image.crop.width >= MinWidth
              && b.region.image.crop.x == 0.0
              && b.region.right == GlueRight(b.region.image)
  {
    var img := r.image;
    var newWidth := img.width + (img.pos.x - pos.x);
    if newWidth < 30.0 then
      var p := Point(img.pos.x + img.width - 30.0, pos.y);
      Bounded(p, r.(left := r.left.(pos := p)))
    else
      var moved := img.(pos := img.pos.(x := pos.x), width := newWidth);
      var resized := moved.(crop := Crop(moved.pos.x - pos.x, 0.0, newWidth, img.height));
      var glued := UpdateAnchors(r.(image := resized), Flush);
      Bounded(pos, glued.(left := glued.left.(pos := pos)))
  }

  /** Starting from a crop at column 0, the image is always drawn from the
      start of its bitmap, whichever anchor is dragged, and it stays
      consistent. */
  lemma CropStaysAtOrigin(r: Region, pos: Point)
    requires Consistent(r.image) && r.image.crop.x == 0.0
    ensures InlineRight(r, pos).region.image.crop.x == 0.0
    ensures InlineLeft(r, pos).region.image.crop.x == 0.0
    ensures Consistent(InlineRight(r, pos).region.image)
    ensures Consistent(InlineLeft(r, pos).region.image)
  {
  }

  /** So an accepted left drag slides the picture along with the left edge:
      every layer column the image still covers shows the bitmap column that
      was `pos.x - x` columns further left before. */
  lemma InlineLeftSlidesContent(r: Region, pos: Point, sx: real)
    requires r.image.crop.x == 0.0
    requires r.image.width + (r.image.pos.x - pos.x) >= MinWidth
    ensures Column(InlineLeft(r, pos).region.image, sx) == Column(r.image, sx) - (pos.x - r.image.pos.x)
  {
  }

  /** An image 300 px wide at x = 100, cropped from column 0, dragged by its
      left anchor to x = 150 shows bitmap columns 0 to 250 at layer columns
      150 to 400 instead of columns 50 to 300: the crop's right column
      moves. */
  lemma InlineLeftMovesCropEnd()
    ensures var img := Image(Point(100.0, 0.0), 300.0, 100.0, Crop(0.0, 0.0, 300.0, 100.0), 300.0);
            var r := UpdateAnchors(Region(img, Handle(Point(0.0, 0.0), 0.0), Handle(Point(0.0, 0.0), 0.0)), Flush);
            var after := InlineLeft(r, Point(150.0, 0.0)).region.image;
            && after.crop == Crop(0.0, 0.0, 250.0, 100.0)
            && after.crop.x + after.crop.width != img.crop.x + img.crop.width
  {
  }
}

=== FILE: old_sprite.dfy ===
/** The old sprite editor: the images do not move, and each anchor's
    bound function rewrites the image's width and crop directly, with no
    minimum width and no re-gluing of the other anchor. The crop window's
    left column is kept equal to the image's x, so the bitmap stays pinned
    to the layer and the anchors only reveal or hide parts of it. */
module OldSprite {
  import opened Geometry
  import opened Sprite

  /** The crop window starts at the image's own x and is as wide as the
      image: layer column `sx` shows bitmap column `sx`. */
  predicate Aligned(img: Image) {
    img.crop.x == img.pos.x && img.width == img.crop.width
  }

  /** Image `index` and its anchors as laid out: stacked at x = 0 one
      bitmap height apart, 300 px wide, cropped to the first 300 columns. */
  function OldLayout(index: nat, spriteHeight: real, natural: real): (r: Region)
    ensures r.image.pos == Point(0.0, index as real * spriteHeight)
    ensures Aligned(r.image) && Glued(r, Flush)
    ensures r.image.crop.x + r.image.crop.width <= natural <==> natural >= 300.0
  {
    var y := index as real * spriteHeight;
    var img := Image(Point(0.0, y), 300.0, spriteHeight, Crop(0.0, 0.0, 300.0, spriteHeight), natural);
    Region(img, Handle(Point(300.0 - 10.0, y), spriteHeight), Handle(Point(0.0, y), spriteHeight))
  }

  /** On an aligned image every layer column shows the bitmap column of
      the same number. */
  lemma AlignedPinsBitmap(img: Image, sx: real)
    requires Aligned(img)
    ensures Column(img, sx) == sx
  {
  }

  /** Right anchor: the image and its crop get the candidate's distance
      from the image's left edge, capped at what is left of the bitmap after
      the crop's left column, so the crop never runs past the bitmap. The
      anchor is handed back on the image's new right edge, at its own y;
      the left anchor is not touched. There is no minimum: a candidate left
      of the image gives it a negative width. */
  function OldRight(r: Region, pos: Point): (b: Bounded)
    ensures b.region.right == r.right.(pos := b.pos) && b.region.left == r.left
    ensures b.pos == Point(RightEdge(b.region.image), r.right.pos.y)
    ensures b.region.image.pos == r.image.pos && b.region.image.crop.x == r.image.crop.x
    ensures b.region.image.width == b.region.image.crop.width
    ensures b.region.image.width == Min(r.image.natural - r.image.crop.x, pos.x - r.image.pos.x)
    ensures b.region.image.crop.x + b.region.image.crop.width <= r.image.natural
    ensures b.pos.x <= pos.x
  {
    var img := r.image;
    var newWidth := pos.x - img.pos.x;
    var w := Min(img.natural - img.crop.x, newWidth);
    var resized := img.(width := w, crop := Crop(img.crop.x, 0.0, w, img.height));
    var p := Point(Min(resized.pos.x + resized.width, pos.x), r.right.pos.y);
    Bounded(p, r.(image := resized, right := r.right.(pos := p)))
  }

  /** Left anchor: the image's left edge and the crop's left column both go
      to the candidate's x and the image keeps its right edge, or collapses
      to width 0 at the candidate when that is past the right edge. The
      anchor is handed back at the candidate, but never left of the stage
      nor more than 10 px short of the right edge, at its own y; the right
      anchor is not touched. */
  function OldLeft(r: Region, pos: Point): (b: Bounded)
    ensures b.region.left == r.left.(pos := b.pos) && b.region.right == r.right
    ensures b.pos.y == r.left.pos.y
    ensures b.region.image.pos == Point(pos.x, r.image.pos.y) && b.region.image.crop.x == pos.x
    ensures b.region.image.width == b.region.image.crop.width >= 0.0
    ensures RightEdge(b.region.image) == Max(pos.x, RightEdge(r.image))
    ensures b.pos.x >= 0.0 && b.pos.x <= Max(0.0, pos.x)
    ensures b.pos.x == Max(0.0, Min(pos.x, RightEdge(b.region.image) - HandleWidth))
    ensures b.region.image.width >= HandleWidth ==> b.pos.x == Max(0.0, pos.x)
  {
    var img := r.image;
    var newWidth := img.width + img.pos.x - pos.x;
    var w := Max(0.0, newWidth);
    var resized := img.(width := w, crop := Crop(pos.x, 0.0, w, img.height));
    var moved := resized.(pos := resized.pos.(x := pos.x));
    var p := Point(Max(0.0, Min(pos.x, moved.pos.x + moved.width - 10.0)), r.left.pos.y);
    Bounded(p, r.(image := moved, left := r.left.(pos := p)))
  }

  /** Both anchors keep the crop aligned with the image. The right anchor
      never lets the crop run past the end of the bitmap; the left anchor
      does not either unless it is dragged past the image's right edge. As
      the crop's left column is the candidate's x, the left anchor keeps the
      crop's start inside the bitmap exactly for candidates not left of the
      stage. */
  lemma OldDragsKeepAligned(r: Region, pos: Point)
    requires Aligned(r.image) && r.image.crop.x + r.image.crop.width <= r.image.natural
    ensures Aligned(OldRight(r, pos).region.image)
    ensures Aligned(OldLeft(r, pos).region.image)
    ensures OldRight(r, pos).region.image.crop.x + OldRight(r, pos).region.image.crop.width <= r.image.natural
    ensures pos.x <= RightEdge(r.image) ==>
              OldLeft(r, pos).region.image.crop.x + OldLeft(r, pos).region.image.crop.width <= r.image.natural
    ensures OldLeft(r, pos).region.image.crop.x >= 0.0 <==> pos.x >= 0.0
  {
  }

  /** Without a minimum width, a right-anchor candidate left of the image
      gives it a negative width. */
  lemma OldRightGoesNegative(r: Region, pos: Point)
    requires pos.x < r.image.pos.x && r.image.crop.x < r.image.natural
    ensures OldRight(r, pos).region.image.width < 0.0
  {
  }
}

=== FILE: row_snap.dfy ===
/** Vertical snapping of a dragged region to a grid of equal-height rows, and
    the dashed indicator that shows, while dragging, the row it will land in.

    Two rounding policies occur: the shared `SnapHandler` floors to the row
    that contains the position, the per-sprite handlers round to the nearest
    row (JavaScript `Math.round`, halves going down the screen). */
module RowSnap {
  import opened Geometry

  /** The dashed snap-indicator rectangle. */
  datatype Indicator = Indicator(x: real, y: real, width: real, height: real, visible: bool)

  /** A snap handler shared by every group on one layer: the row height, the
      width of its layer and its one indicator. */
  datatype SnapHandler = SnapHandler(rowHeight: real, layerWidth: real, indicator: Indicator)

  /** A new `SnapHandler`: its indicator exists but is hidden. */
  function NewSnapHandler(rowHeight: real, layerWidth: real): (sh: SnapHandler)
    ensures sh.rowHeight == rowHeight && sh.layerWidth == layerWidth
    ensures !sh.indicator.visible
  {
    SnapHandler(rowHeight, layerWidth, Indicator(0.0, 0.0, 0.0, 0.0, false))
  }

  /** `y` is a whole number of rows of height `h` from the top of the layer. */
  predicate OnGrid(y: real, h: real)
    requires h > 0.0
  {
    (y / h).Floor as real == y / h
  }

  /** A whole number of rows is on the grid. */
  lemma RowsOnGrid(n: int, h: real)
    requires h > 0.0
    ensures OnGrid(n as real * h, h)
  {
    assert (n as real * h) / h == n as real;
  }

  /** A position on the grid is a whole number of rows. */
  lemma OnGridRows(y: real, h: real)
    requires h > 0.0 && OnGrid(y, h)
    ensures y == Floor(y / h) as real * h
  {
    assert (y / h) * h == y;
  }

  /** Scaling `n <= y / h < n + 1` by the row height `h`. */
  lemma RowBounds(n: int, y: real, h: real)
    requires h > 0.0 && n as real <= y / h < n as real + 1.0
    ensures n as real * h <= y < n as real * h + h
  {
    var q, a := y / h, n as real;
    assert q * h == y;
    MulMono(a, q, h);
    MulStrictMono(q, a + 1.0, h);
    assert (a + 1.0) * h == a * h + h;
    assert y < a * h + h;
  }

  /** The tops of two different rows are at least one row height apart. */
  lemma RowsApart(m: int, n: int, h: real, t: real, s: real)
    requires m < n && h > 0.0 && t == m as real * h && s == n as real * h
    ensures t + h <= s
  {
    MulMono(m as real + 1.0, n as real, h);
    assert (m as real + 1.0) * h == t + h;
  }

  /** Release snap of the shared handler: the top of the row containing `y`. */
  function FloorSnap(y: real, h: real): (s: real)
    requires h > 0.0
    ensures OnGrid(s, h)
    ensures s <= y < s + h
  {
    var n := Floor(y / h);
    RowBounds(n, y, h);
    RowsOnGrid(n, h);
    n as real * h
  }

  /** Release snap of the sprite handlers: the row top nearest to `y`. */
  function RoundSnap(y: real, h: real): (s: real)
    requires h > 0.0
    ensures OnGrid(s, h)
    ensures y - h / 2.0 < s <= y + h / 2.0
  {
    var n := Round(y / h);
    MulStrictMono(y / h - 0.5, n as real, h);
    MulMono(n as real, y / h + 0.5, h);
    RowsOnGrid(n, h);
    n as real * h
  }

  /** Flooring picks the only row top within one row above `y`. */
  lemma FloorSnapUnique(y: real, h: real, t: real)
    requires h > 0.0 && OnGrid(t, h) && t <= y < t + h
    ensures t == FloorSnap(y, h)
  {
    var s := FloorSnap(y, h);
    OnGridRows(t, h);
    OnGridRows(s, h);
    var m, n := Floor(t / h), Floor(s / h);
    if m < n {
      RowsApart(m, n, h, t, s);
      assert false;
    } else if n < m {
      RowsApart(n, m, h, s, t);
      assert false;
    }
  }

  /** Snapping an already snapped position leaves it where it is. */
  lemma FloorSnapIdempotent(y: real, h: real)
    requires h > 0.0
    ensures FloorSnap(FloorSnap(y, h), h) == FloorSnap(y, h)
  {
    var s := FloorSnap(y, h);
    FloorSnapUnique(s, h, s);
  }

  /** Rounding picks the only row top within half a row of `y`. */
  lemma RoundSnapUnique(y: real, h: real, t: real)
    requires h > 0.0 && OnGrid(t, h) && y - h / 2.0 < t <= y + h / 2.0
    ensures t == RoundSnap(y, h)
  {
    var s := RoundSnap(y, h);
    OnGridRows(t, h);
    OnGridRows(s, h);
    var m, n := Floor(t / h), Floor(s / h);
    if m < n {
      RowsApart(m, n, h, t, s);
      assert false;
    } else if n < m {
      RowsApart(n, m, h, s, t);
      assert false;
    }
  }

  /** Rounding an already snapped position leaves it where it is. */
  lemma RoundSnapIdempotent(y: real, h: real)
    requires h > 0.0
    ensures RoundSnap(RoundSnap(y, h), h) == RoundSnap(y, h)
  {
    var s := RoundSnap(y, h);
    RoundSnapUnique(s, h, s);
  }

  /** `showSnapIndicator(y)`: the indicator covers, across the whole layer,
      the row that contains `y`, and becomes visible. */
  function ShowIndicator(sh: SnapHandler, y: real): (r: SnapHandler)
    requires sh.rowHeight > 0.0
    ensures r.rowHeight == sh.rowHeight && r.layerWidth == sh.layerWidth
    ensures r.indicator.visible
    ensures r.indicator.x == 0.0 && r.indicator.width == sh.layerWidth
    ensures r.indicator.height == sh.rowHeight
    ensures OnGrid(r.indicator.y, sh.rowHeight)
    ensures r.indicator.y <= y < r.indicator.y + r.indicator.height
  {
    sh.(indicator := Indicator(0.0, FloorSnap(y, sh.rowHeight), sh.layerWidth, sh.rowHeight, true))
  }

  /** `hideSnapIndicator()`: only the indicator's visibility changes. */
  function HideIndicator(sh: SnapHandler): (r: SnapHandler)
    ensures !r.indicator.visible
    ensures r.indicator == sh.indicator.(visible := false)
    ensures r.rowHeight == sh.rowHeight && r.layerWidth == sh.layerWidth
  {
    sh.(indicator := sh.indicator.(visible := false))
  }
}

=== FILE: sprite.dfy ===
/** A cropped `Konva.Image` laid on the layer with two 10 px wide anchor
    rectangles, as in the sprite and waveform-image editors: the body drags
    inside the stage and snaps to the nearest row on release, and the
    anchors stay glued to its edges. Every coordinate here is absolute on
    the layer.

    The anchors' bound functions are in `SpriteLeft` and `SpriteRight`;
    this module holds the shared state and the body handlers. */
module Sprite {
  import opened Geometry
  import RowSnap

  /** Narrowest image a sprite anchor accepts. */
  const MinWidth: real := 30.0

  /** The part of the bitmap that is drawn, in bitmap pixels. */
  datatype Crop = Crop(x: real, y: real, width: real, height: real)

  /** The displayed image: its position and size on the layer, its crop
      window, and the natural width of the loaded bitmap. The image's height
      is the bitmap's height (`spriteHeight`) and no handler changes it. */
  datatype Image = Image(pos: Point, width: real, height: real, crop: Crop, natural: real)

  /** An anchor rectangle: its top-left corner and its height. */
  datatype Handle = Handle(pos: Point, height: real)

  /** An image with its right and left anchors. */
  datatype Region = Region(image: Image, right: Handle, left: Handle)

  /** What an anchor's bound function returns, and the region after it ran:
      the library moves the dragged anchor to the returned position. */
  datatype Bounded = Bounded(pos: Point, region: Region)

  /** Where `updateAnchors` puts the left anchor: on the image's left edge
      (`Flush`), or just outside it (`Outset`, the clipping editor). */
  datatype GlueStyle = Flush | Outset

  /** The image's right edge on the layer. */
  function RightEdge(img: Image): real {
    img.pos.x + img.width
  }

  /** The right anchor just inside the image's right edge. */
  function GlueRight(img: Image): Handle {
    Handle(Point(img.pos.x + img.width - HandleWidth, img.pos.y), img.height)
  }

  /** The left anchor on or just outside the image's left edge. */
  function GlueLeft(img: Image, style: GlueStyle): Handle {
    var x := if style == Flush then img.pos.x else img.pos.x - HandleWidth;
    Handle(Point(x, img.pos.y), img.height)
  }

  /** Both anchors are where `updateAnchors` puts them. */
  predicate Glued(r: Region, style: GlueStyle) {
    r.right == GlueRight(r.image) && r.left == GlueLeft(r.image, style)
  }

  /** `updateAnchors`: the right anchor's right edge meets the image's right
      edge, the left anchor's left edge (flush) or right edge (outset) meets
      the image's left edge, both span the image's height on its row. */
  function UpdateAnchors(r: Region, style: GlueStyle): (u: Region)
    ensures u.image == r.image && Glued(u, style)
    ensures u.right.pos.x + HandleWidth == RightEdge(r.image)
    ensures style == Flush ==> u.left.pos.x == r.image.pos.x
    ensures style == Outset ==> u.left.pos.x + HandleWidth == r.image.pos.x
    ensures u.right.pos.y == r.image.pos.y && u.left.pos.y == r.image.pos.y
    ensures u.right.height == r.image.height && u.left.height == r.image.height
  {
    var img := r.image;
    var right := Handle(Point(img.pos.x + img.width - 10.0, img.pos.y), img.height);
    var left := Handle(Point(if style == Flush then img.pos.x else img.pos.x - 10.0, img.pos.y), img.height);
    Region(img, right, left)
  }

  /** Gluing changes nothing exactly when the anchors are already glued. */
  lemma UpdateAnchorsFixes(r: Region, style: GlueStyle)
    ensures UpdateAnchors(r, style) == r <==> Glued(r, style)
    ensures UpdateAnchors(UpdateAnchors(r, style), style) == UpdateAnchors(r, style)
  {
  }

  /** The body's bound function: keep the image's top-left corner inside the
      stage, so that the whole image is on it whenever it fits; an image wider
      (taller) than the stage is pinned to the left (top) edge. */
  function BodyBound(img: Image, stage: Stage, pos: Point): (p: Point)
    ensures p.x >= 0.0 && p.y >= 0.0
    ensures img.width <= stage.width ==> p.x + img.width <= stage.width
    ensures img.height <= stage.height ==> p.y + img.height <= stage.height
    ensures img.width > stage.width ==> p.x == 0.0
    ensures img.height > stage.height ==> p.y == 0.0
    ensures 0.0 <= pos.x <= stage.width - img.width ==> p.x == pos.x
    ensures 0.0 <= pos.y <= stage.height - img.height ==> p.y == pos.y
  {
    Point(Max(0.0, Min(stage.width - img.width, pos.x)),
          Max(0.0, Min(stage.height - img.height, pos.y)))
  }

  function Abs(v: real): real {
    if v < 0.0 then -v else v
  }

  /** Of all positions that keep a fitting image on the stage, the bound
      function picks the one nearest to the pointer, coordinate by
      coordinate, and bounding twice is bounding once. */
  lemma BodyBoundNearest(img: Image, stage: Stage, pos: Point, q: Point)
    requires 0.0 <= q.x <= stage.width - img.width
    requires 0.0 <= q.y <= stage.height - img.height
    ensures Abs(BodyBound(img, stage, pos).x - pos.x) <= Abs(q.x - pos.x)
    ensures Abs(BodyBound(img, stage, pos).y - pos.y) <= Abs(q.y - pos.y)
    ensures BodyBound(img, stage, BodyBound(img, stage, pos)) == BodyBound(img, stage, pos)
  {
  }

  /** The region after a body drag event, with the shared snap indicator. */
  datatype Dragged = Dragged(region: Region, indicator: RowSnap.Indicator)

  /** Body `dragmove` of the sprite editors: the image is at its bounded
      position, the anchors follow it, and the indicator, visible, covers the
      image's footprint on the nearest row. */
  function DragMove(r: Region, style: GlueStyle, stage: Stage, candidate: Point): (d: Dragged)
    requires r.image.height > 0.0
    ensures d.region.image == r.image.(pos := BodyBound(r.image, stage, candidate))
    ensures Glued(d.region, style)
    ensures d.indicator.visible
    ensures d.indicator.x == d.region.image.pos.x
    ensures d.indicator.width == r.image.width && d.indicator.height == r.image.height
    ensures RowSnap.OnGrid(d.indicator.y, r.image.height)
    ensures Abs(d.indicator.y - d.region.image.pos.y) <= r.image.height / 2.0
  {
    var img := r.image.(pos := BodyBound(r.image, stage, candidate));
    var row := RowSnap.RoundSnap(img.pos.y, img.height);
    Dragged(UpdateAnchors(r.(image := img), style),
            RowSnap.Indicator(img.pos.x, row, img.width, img.height, true))
  }

  /** Body `dragend` of the sprite editors: the image drops onto the nearest
      row, keeps its x and size, the anchors follow it and the indicator is
      hidden where it was. */
  function DragEnd(d: Dragged, style: GlueStyle): (e: Dragged)
    requires d.region.image.height > 0.0
    ensures e.region.image == d.region.image.(pos := d.region.image.pos.(y := e.region.image.pos.y))
    ensures RowSnap.OnGrid(e.region.image.pos.y, d.region.image.height)
    ensures Abs(e.region.image.pos.y - d.region.image.pos.y) <= d.region.image.height / 2.0
    ensures Glued(e.region, style)
    ensures e.indicator == d.indicator.(visible := false)
  {
    var img := d.region.image;
    var row := RowSnap.RoundSnap(img.pos.y, img.height);
    Dragged(UpdateAnchors(d.region.(image := img.(pos := img.pos.(y := row))), style),
            d.indicator.(visible := false))
  }

  /** Releasing after a move lands the image on the row the indicator
      showed, at the indicator's x, and a second release changes nothing. */
  lemma ReleaseLandsOnIndicator(r: Region, style: GlueStyle, stage: Stage, candidate: Point)
    requires r.image.height > 0.0
    ensures var moved := DragMove(r, style, stage, candidate);
            var released := DragEnd(moved, style);
            && released.region.image.pos == Point(moved.indicator.x, moved.indicator.y)
            && DragEnd(released, style) == released
  {
    var moved := DragMove(r, style, stage, candidate);
    RowSnap.RoundSnapIdempotent(moved.region.image.pos.y, r.image.height);
  }

  /** Row snapping never lifts an image above the top of the stage. */
  lemma ReleaseStaysBelowTop(d: Dragged, style: GlueStyle)
    requires d.region.image.height > 0.0 && d.region.image.pos.y >= 0.0
    ensures DragEnd(d, style).region.image.pos.y >= 0.0
  {
    var h := d.region.image.height;
    var s := DragEnd(d, style).region.image.pos.y;
    RowSnap.OnGridRows(s, h);
    var n := Floor(s / h);
    if n < 0 {
      MulMono(n as real, -1.0, h);
      assert false;
    }
    MulMono(0.0, n as real, h);
  }

  /** The release rounds to the nearest row, so it can move the image down
      by up to half its height past the bottom of the stage: an image 200 px
      high dragged to y = 600 on a 700 px stage is held at y = 500, and the
      release then drops it to y = 600, its bottom edge at 800. */
  lemma ReleaseCanPassBottom()
    ensures var img := Image(Point(0.0, 0.0), 300.0, 200.0, Crop(0.0, 0.0, 300.0, 200.0), 300.0);
            var r := UpdateAnchors(Region(img, Handle(Point(0.0, 0.0), 0.0), Handle(Point(0.0, 0.0), 0.0)), Flush);
            var d := DragMove(r, Flush, Stage(1000.0, 700.0), Point(0.0, 600.0));
            var e := DragEnd(d, Flush);
            && d.region.image.pos.y == 500.0 && d.region.image.pos.y + d.region.image.height <= 700.0
            && e.region.image.pos.y == 600.0
            && e.region.image.pos.y + e.region.image.height > 700.0
  {
  }

  /** Body `dragmove` and `dragend` of the waveform image: the image is at
      its bounded position and the anchors follow; there is no row snap. */
  function GlueMove(r: Region, stage: Stage, candidate: Point): (u: Region)
    ensures u.image == r.image.(pos := BodyBound(r.image, stage, candidate))
    ensures Glued(u, Flush)
  {
    UpdateAnchors(r.(image := r.image.(pos := BodyBound(r.image, stage, candidate))), Flush)
  }

  /** The image is drawn one-to-one from a crop that starts inside the
      bitmap and is at least `MinWidth` wide. */
  predicate Consistent(img: Image) {
    img.width == img.crop.width && img.width >= MinWidth && img.crop.x >= 0.0
  }

  /** A consistent image whose crop window also ends inside the bitmap. */
  predicate WithinAsset(img: Image) {
    Consistent(img) && img.crop.x + img.crop.width <= img.natural
  }

  /** The bitmap column drawn at layer column `sx` of a consistent image. */
  function Column(img: Image, sx: real): real {
    img.crop.x + (sx - img.pos.x)
  }

  /** Moving or snapping the body keeps the crop window and the image's
      size, so it keeps both invariants, and every layer column shows the
      bitmap column it showed shifted with the body. */
  lemma BodyDragKeepsCrop(r: Region, style: GlueStyle, stage: Stage, candidate: Point, sx: real)
    requires r.image.height > 0.0
    ensures var d := DragMove(r, style, stage, candidate);
            && (Consistent(r.image) ==> Consistent(d.region.image))
            && (WithinAsset(r.image) ==> WithinAsset(d.region.image))
            && (WithinAsset(r.image) ==> WithinAsset(DragEnd(d, style).region.image))
            && Column(d.region.image, sx + (d.region.image.pos.x - r.image.pos.x)) == Column(r.image, sx)
  {
  }

  /** The sprites as first laid out: image `index` at x = 50 * index on the
      top row, 300 px wide, cropped to the bitmap's first 300 columns, with
      the anchors at the positions the editors write as constants. */
  function Layout(index: nat, spriteHeight: real, natural: real, style: GlueStyle): (r: Region)
    ensures r.image.pos == Point(50.0 * index as real, 0.0)
    ensures Glued(r, style)
    ensures WithinAsset(r.image) <==> natural >= 300.0
  {
    var x := 50.0 * index as real;
    var img := Image(Point(x, 0.0), 300.0, spriteHeight, Crop(0.0, 0.0, 300.0, spriteHeight), natural);
    var leftX := if style == Flush then x else x - 10.0;
    Region(img, Handle(Point(x + 300.0 - 10.0, 0.0), spriteHeight), Handle(Point(leftX, 0.0), spriteHeight))
  }
}

=== FILE: sprite_left.dfy ===
/** The left anchor's bound function shared by the sprite editors and the
    waveform-image editor: dragging it trims or extends the image from the
    left, keeping the image's right edge and the bitmap content under it
    where they are. */
module SpriteLeft {
  import opened Geometry
  import opened Sprite

  /** The bound function accepts the drag: the left edge stays left of the
      right edge, the image keeps `MinWidth`, and the crop still starts
      inside the bitmap. `edge` is where the new left edge would go. */
  predicate Accepts(img: Image, pos: Point, edge: real) {
    && Max(0.0, pos.x) < RightEdge(img)
    && img.width + (img.pos.x - edge) >= MinWidth
    && edge - img.pos.x + img.crop.x >= 0.0
  }

  /** The left anchor's bound function as written: it tests `max(0, pos.x)`
      against the right edge but trims the image to `pos.x` itself. A
      rejected drag leaves the image alone and holds the anchor on the
      image's left edge, or `MinWidth` short of the right edge when the
      image would get too narrow; an accepted one moves the left edge to
      `pos.x`, shifts the crop window with it and re-glues the anchors. The
      anchor never leaves its row. */
  function LeftBound(r: Region, style: GlueStyle, pos: Point): (b: Bounded)
    ensures !Accepts(r.image, pos, pos.x) ==>
              && b.region.image == r.image && b.region.right == r.right
              && b.region.left == r.left.(pos := b.pos)
              && b.pos.y == r.left.pos.y
              && (b.pos.x == r.image.pos.x || b.pos.x == RightEdge(r.image) - MinWidth)
    ensures Max(0.0, pos.x) >= RightEdge(r.image) ==> b.pos.x == r.image.pos.x
    ensures Max(0.0, pos.x) < RightEdge(r.image) && r.image.width + (r.image.pos.x - pos.x) < MinWidth ==>
              b.pos.x == RightEdge(r.image) - MinWidth
    ensures Accepts(r.image, pos, pos.x) ==>
              && b.pos == Point(pos.x, r.image.pos.y)
              && b.region.image.pos == b.pos
              && RightEdge(b.region.image) == RightEdge(r.image)
              && b.region.image.width == b.region.image.crop.width >= MinWidth
              && b.region.image.crop.x >= 0.0
              && b.region.image.crop.x - b.region.image.pos.x == r.image.crop.x - r.image.pos.x
              && b.region.image.crop.y == 0.0 && b.region.image.crop.height == r.image.height
              && b.region.image.height == r.image.height && b.region.image.natural == r.image.natural
              && b.region.right == GlueRight(b.region.image)
  {
    var img := r.image;
    var newWidth := img.width + (img.pos.x - pos.x);
    var newX := Max(0.0, pos.x);
    if newX >= img.pos.x + img.width then
      Hold(r, img.pos.x)
    else if newWidth < 30.0 then
      Hold(r, img.pos.x + img.width - 30.0)
    else
      var newCropX := pos.x - img.pos.x + img.crop.x;
      if newCropX < 0.0 then
        Hold(r, img.pos.x)
      else
        Trim(r, style, pos.x, newWidth, newCropX)
  }

  /** A rejected drag: the anchor is held at `x` on its current row. */
  function Hold(r: Region, x: real): (b: Bounded)
    ensures b.pos == Point(x, r.left.pos.y)
    ensures b.region == r.(left := r.left.(pos := b.pos))
  {
    var p := Point(x, r.left.pos.y);
    Bounded(p, r.(left := r.left.(pos := p)))
  }

  /** An accepted drag: the image starts at `x`, is `width` wide and drawn
      from bitmap column `cropX`; the anchors are re-glued and the dragged
      one is then put on the image's left edge. */
  function Trim(r: Region, style: GlueStyle, x: real, width: real, cropX: real): (b: Bounded)
    ensures b.pos == Point(x, r.image.pos.y)
    ensures b.region.image == r.image.(pos := r.image.pos.(x := x), width := width,
                                        crop := Crop(cropX, 0.0, width, r.image.height))
    ensures b.region.right == GlueRight(b.region.image)
    ensures b.region.left == GlueLeft(b.region.image, style).(pos := b.pos)
  {
    var img := r.image.(pos := r.image.pos.(x := x), width := width,
                        crop := Crop(cropX, 0.0, width, r.image.height));
    var glued := UpdateAnchors(r.(image := img), style);
    var p := Point(x, img.pos.y);
    Bounded(p, glued.(left := glued.left.(pos := p)))
  }

  /** An accepted left drag keeps both invariants, and every layer column
      the image still covers shows the same bitmap column as before. */
  lemma LeftBoundKeepsContent(r: Region, style: GlueStyle, pos: Point, sx: real)
    requires Accepts(r.image, pos, pos.x)
    ensures Consistent(r.image) ==> Consistent(LeftBound(r, style, pos).region.image)
    ensures WithinAsset(r.image) ==> WithinAsset(LeftBound(r, style, pos).region.image)
    ensures Column(LeftBound(r, style, pos).region.image, sx) == Column(r.image, sx)
  {
  }

  /** A rejected left drag changes no invariant: the image is untouched. */
  lemma LeftBoundRejectKeeps(r: Region, style: GlueStyle, pos: Point)
    requires !Accepts(r.image, pos, pos.x)
    ensures LeftBound(r, style, pos).region.image == r.image
  {
  }

  /** With flush anchors the dragged anchor ends where `updateAnchors` put
      it; with the clipping editor's outset anchors it ends on the image's
      left edge, `HandleWidth` right of where `updateAnchors` put it. */
  lemma LeftBoundAnchorPlacement(r: Region, style: GlueStyle, pos: Point)
    requires Accepts(r.image, pos, pos.x)
    ensures style == Flush ==> Glued(LeftBound(r, style, pos).region, style)
    ensures style == Outset ==>
              LeftBound(r, style, pos).region.left.pos.x
                == GlueLeft(LeftBound(r, style, pos).region.image, style).pos.x + HandleWidth
  {
  }

  /** The image can be pushed past the stage's left edge: a sprite trimmed
      to start at bitmap column 50 and dragged back to x = 10, then dragged
      by its left anchor to x = -20, is accepted and ends at x = -20. */
  lemma LeftBoundLeavesStage()
    ensures var img := Image(Point(10.0, 0.0), 250.0, 100.0, Crop(50.0, 0.0, 250.0, 100.0), 300.0);
            var r := UpdateAnchors(Region(img, Handle(Point(0.0, 0.0), 0.0), Handle(Point(0.0, 0.0), 0.0)), Flush);
            && WithinAsset(img) && img.pos.x >= 0.0
            && LeftBound(r, Flush, Point(-20.0, 0.0)).region.image.pos.x == -20.0
  {
  }

  /** The left bound function as evidently intended: the clamped edge
      `max(0, pos.x)` it computes is the one it trims to, so the image
      never leaves the stage on the left. Otherwise as `LeftBound`. */
  function ClampedLeftBound(r: Region, style: GlueStyle, pos: Point): (b: Bounded)
    ensures !Accepts(r.image, pos, Max(0.0, pos.x)) ==>
              b.region.image == r.image && b.region.right == r.right && b.region.left.pos == b.pos
    ensures Accepts(r.image, pos, Max(0.0, pos.x)) ==>
              && b.pos == Point(Max(0.0, pos.x), r.image.pos.y)
              && b.region.image.pos == b.pos
              && RightEdge(b.region.image) == RightEdge(r.image)
              && b.region.image.crop.x - b.region.image.pos.x == r.image.crop.x - r.image.pos.x
              && b.region.image.natural == r.image.natural
  {
    var img := r.image;
    var newX := Max(0.0, pos.x);
    var newWidth := img.width + (img.pos.x - newX);
    if newX >= img.pos.x + img.width then
      Hold(r, img.pos.x)
    else if newWidth < 30.0 then
      Hold(r, img.pos.x + img.width - 30.0)
    else
      var newCropX := newX - img.pos.x + img.crop.x;
      if newCropX < 0.0 then
        Hold(r, img.pos.x)
      else
        Trim(r, style, newX, newWidth, newCropX)
  }

  /** The clamped left drag keeps the image on the stage and inside its
      bitmap, and keeps the content of every column it still covers. */
  lemma ClampedLeftBoundKeeps(r: Region, style: GlueStyle, pos: Point, sx: real)
    requires WithinAsset(r.image) && r.image.pos.x >= 0.0
    ensures WithinAsset(ClampedLeftBound(r, style, pos).region.image)
    ensures ClampedLeftBound(r, style, pos).region.image.pos.x >= 0.0
    ensures Column(ClampedLeftBound(r, style, pos).region.image, sx) == Column(r.image, sx)
    ensures pos.x >= 0.0 ==> ClampedLeftBound(r, style, pos) == LeftBound(r, style, pos)
  {
  }
}

=== FILE: sprite_right.dfy ===
/** The right anchor's bound functions of the sprite and waveform-image
    editors. All three widen or narrow the image from the right and keep
    the crop window's left column; they differ in how they cap the width
    and where they leave the dragged anchor. */
module SpriteRight {
  import opened Geometry
  import opened Sprite

  /** A rejected drag: the anchor is held at `x` on its current row. */
  function Hold(r: Region, x: real): (b: Bounded)
    ensures b.pos == Point(x, r.right.pos.y)
    ensures b.region == r.(right := r.right.(pos := b.pos))
  {
    var p := Point(x, r.right.pos.y);
    Bounded(p, r.(right := r.right.(pos := p)))
  }

  /** An accepted drag: the image and its crop window become `width` wide,
      the crop keeps its left column, the anchors are re-glued and the
      dragged one is then put at `x` on the image's row. */
  function Widen(r: Region, style: GlueStyle, width: real, x: real): (b: Bounded)
    ensures b.pos == Point(x, r.image.pos.y)
    ensures b.region.image == r.image.(width := width,
                                        crop := Crop(r.image.crop.x, 0.0, width, r.image.height))
    ensures b.region.left == GlueLeft(b.region.image, style)
    ensures b.region.right == GlueRight(b.region.image).(pos := b.pos)
  {
    var img := r.image.(width := width, crop := Crop(r.image.crop.x, 0.0, width, r.image.height));
    var glued := UpdateAnchors(r.(image := img), style);
    var p := Point(x, img.pos.y);
    Bounded(p, glued.(right := glued.right.(pos := p)))
  }

  /** The first sprite editor's right anchor. A candidate at or past the
      bitmap's natural width, compared as a layer coordinate, holds the
      anchor at that x; one that would leave the image narrower than
      `MinWidth` holds it 20 px right of the image's left edge. Otherwise
      the image ends exactly at the candidate's x, where the anchor is
      left. */
  function KonvaRight(r: Region, pos: Point): (b: Bounded)
    ensures pos.x >= r.image.natural ==>
              b.region.image == r.image && b.pos == Point(r.image.natural, r.right.pos.y)
    ensures pos.x < r.image.natural && pos.x - r.image.pos.x < MinWidth ==>
              b.region.image == r.image && b.pos == Point(r.image.pos.x + 20.0, r.right.pos.y)
    ensures (pos.x >= r.image.natural || pos.x - r.image.pos.x < MinWidth) ==>
              b.region == r.(right := r.right.(pos := b.pos))
    ensures pos.x < r.image.natural && pos.x - r.image.pos.x >= MinWidth ==>
              && b.region.image == r.image.(width := pos.x - r.image.pos.x,
                                            crop := Crop(r.image.crop.x, 0.0, pos.x - r.image.pos.x, r.image.height))
              && b.pos == Point(pos.x, r.image.pos.y)
              && RightEdge(b.region.image) == b.pos.x < r.image.natural
              && b.region.image.width == b.region.image.crop.width >= MinWidth
              && b.region.image.pos == r.image.pos && b.region.image.crop.x == r.image.crop.x
              && b.region.left == GlueLeft(b.region.image, Flush)
    ensures b.region.right.pos == b.pos
  {
    var img := r.image;
    var newWidth := pos.x - img.pos.x;
    var newX := Min(pos.x, img.natural);
    if newX >= img.natural then
      Hold(r, img.natural)
    else if newWidth < 30.0 then
      Hold(r, img.pos.x + 30.0 - 10.0)
    else
      Widen(r, Flush, newWidth, pos.x)
  }

  /** The first editor's right drag keeps the image consistent: a rejected
      drag leaves it untouched, an accepted one keeps it one-to-one, at
      least `MinWidth` wide and cropped from the same column. */
  lemma KonvaRightKeepsConsistent(r: Region, pos: Point)
    requires Consistent(r.image)
    ensures Consistent(KonvaRight(r, pos).region.image)
    ensures KonvaRight(r, pos).region.left == r.left || pos.x - r.image.pos.x >= MinWidth
  {
  }

  /** The right drag accepts a candidate exactly when it leaves the image,
      capped at the bitmap's natural width, at least `MinWidth` wide. */
  predicate Accepts(img: Image, pos: Point) {
    Min(img.natural, pos.x - img.pos.x) >= MinWidth
  }

  /** The waveform image's right anchor: the width is the candidate's
      distance from the left edge, capped at the bitmap's natural width; a
      width under `MinWidth` holds the anchor `MinWidth` right of the left
      edge. An accepted drag leaves the anchor on the image's new right
      edge, just outside the image. */
  function WaveformRight(r: Region, pos: Point): (b: Bounded)
    ensures Accepts(r.image, pos) <==> pos.x - r.image.pos.x >= MinWidth && r.image.natural >= MinWidth
    ensures !Accepts(r.image, pos) ==>
              b.region.image == r.image && b.pos == Point(r.image.pos.x + MinWidth, r.right.pos.y)
    ensures !Accepts(r.image, pos) ==> b.region == r.(right := r.right.(pos := b.pos))
    ensures Accepts(r.image, pos) ==>
              var w := Min(r.image.natural, pos.x - r.image.pos.x);
              b.region.image == r.image.(width := w, crop := Crop(r.image.crop.x, 0.0, w, r.image.height))
    ensures Accepts(r.image, pos) ==>
              && b.region.image.width == b.region.image.crop.width == Min(r.image.natural, pos.x - r.image.pos.x)
              && b.region.image.pos == r.image.pos && b.region.image.crop.x == r.image.crop.x
              && b.pos == Point(RightEdge(b.region.image), r.image.pos.y)
              && b.pos.x <= pos.x
              && b.region.left == GlueLeft(b.region.image, Flush)
    ensures b.region.right.pos == b.pos
  {
    var img := r.image;
    var maxWidth := img.natural;
    var newWidth := if maxWidth < pos.x - img.pos.x then maxWidth else pos.x - img.pos.x;
    var newX := Min(pos.x, img.pos.x + maxWidth);
    if newWidth < 30.0 then
      Hold(r, img.pos.x + 30.0)
    else
      Widen(r, Flush, newWidth, newX)
  }

  /** The sprite right anchor of the waveform and clipping editors: as
      `WaveformRight`, but the anchor is handed back `HandleWidth` further
      left, so that an accepted drag leaves it exactly where `updateAnchors`
      put it, and a rejected one where it would be glued to an image
      `MinWidth` wide. The width is capped at the natural width regardless
      of the crop's left column. */
  function SpriteRightBound(r: Region, style: GlueStyle, pos: Point): (b: Bounded)
    ensures !Accepts(r.image, pos) ==>
              b.region.image == r.image
              && b.pos == Point(r.image.pos.x + MinWidth - HandleWidth, r.right.pos.y)
    ensures !Accepts(r.image, pos) ==> b.region == r.(right := r.right.(pos := b.pos))
    ensures Accepts(r.image, pos) ==>
              var w := Min(r.image.natural, pos.x - r.image.pos.x);
              b.region.image == r.image.(width := w, crop := Crop(r.image.crop.x, 0.0, w, r.image.height))
    ensures Accepts(r.image, pos) ==>
              && b.region.image.width == b.region.image.crop.width == Min(r.image.natural, pos.x - r.image.pos.x)
              && b.region.image.pos == r.image.pos && b.region.image.crop.x == r.image.crop.x
              && Glued(b.region, style)
    ensures b.region.right.pos == b.pos
  {
    var img := r.image;
    var maxWidth := img.natural;
    var newWidth := if maxWidth < pos.x - img.pos.x then maxWidth else pos.x - img.pos.x;
    var newX := Min(pos.x, img.pos.x + maxWidth) - 10.0;
    if newWidth < 30.0 then
      Hold(r, img.pos.x + 20.0)
    else
      Widen(r, style, newWidth, newX)
  }

  /** The waveform image's anchor and the sprite anchor take the same
      decision and set the same image; they differ only in where the
      anchor is left, `HandleWidth` apart. */
  lemma WaveformRightIsSpriteRightOutside(r: Region, pos: Point)
    ensures WaveformRight(r, pos).region.image == SpriteRightBound(r, Flush, pos).region.image
    ensures WaveformRight(r, pos).pos.x == SpriteRightBound(r, Flush, pos).pos.x + HandleWidth
  {
  }

  /** Both capped right drags keep the image consistent, and after an
      accepted drag, dragging again with the same pointer-side candidate,
      `HandleWidth` right of the handed-back x, changes nothing. */
  lemma SpriteRightKeepsConsistent(r: Region, style: GlueStyle, pos: Point)
    requires Consistent(r.image)
    ensures Consistent(SpriteRightBound(r, style, pos).region.image)
    ensures Consistent(WaveformRight(r, pos).region.image)
    ensures Accepts(r.image, pos) ==>
              var b := SpriteRightBound(r, style, pos);
              SpriteRightBound(b.region, style, Point(b.pos.x + HandleWidth, b.pos.y)) == b
  {
  }

  /** The sprite right bound hands the anchor back `HandleWidth` left of
      the candidate, so a further event whose candidate is the handed-back
      position narrows the image by `HandleWidth` again, or holds it once
      that would go below `MinWidth`. */
  lemma SpriteRightAgainAtAnchor(r: Region, style: GlueStyle, pos: Point)
    ensures Accepts(r.image, pos) ==>
              var b := SpriteRightBound(r, style, pos);
              var c := SpriteRightBound(b.region, style, b.pos);
              && b.pos.x == b.region.image.pos.x + b.region.image.width - HandleWidth
              && (b.region.image.width - HandleWidth >= MinWidth ==>
                    && c.region.image.width == b.region.image.width - HandleWidth
                    && c.region.image.pos == b.region.image.pos
                    && c.region.image.crop.x == b.region.image.crop.x)
              && (b.region.image.width - HandleWidth < MinWidth ==> c.region.image == b.region.image)
  {
  }

  /** The cap ignores the crop's left column, so a sprite trimmed on the
      left can be widened past the end of its bitmap: sprite 0 trimmed to
      start at column 50 and then dragged by its right anchor to x = 340
      crops columns 50 to 340 of a 300 px bitmap. */
  lemma SpriteRightOverflows()
    ensures var img := Image(Point(50.0, 0.0), 250.0, 100.0, Crop(50.0, 0.0, 250.0, 100.0), 300.0);
            var r := UpdateAnchors(Region(img, Handle(Point(0.0, 0.0), 0.0), Handle(Point(0.0, 0.0), 0.0)), Outset);
            var after := SpriteRightBound(r, Outset, Point(340.0, 0.0)).region.image;
            && WithinAsset(img)
            && after.crop.x + after.crop.width == 340.0
            && !WithinAsset(after)
  {
  }

  /** The sprite right anchor as evidently intended: the width is capped at
      what is left of the bitmap after the crop's left column, as the
      earliest editor does, and the anchor is handed back on the glued
      position of the capped image. */
  function ClampedSpriteRightBound(r: Region, style: GlueStyle, pos: Point): (b: Bounded)
    ensures var cap := Min(r.image.natural - r.image.crop.x, pos.x - r.image.pos.x);
            && (cap < MinWidth ==> b.region.image == r.image)
            && (cap < MinWidth ==>
                  && b.pos == Point(r.image.pos.x + MinWidth - HandleWidth, r.right.pos.y)
                  && b.region == r.(right := r.right.(pos := b.pos)))
            && (cap >= MinWidth ==>
                  b.region.image == r.image.(width := cap, crop := Crop(r.image.crop.x, 0.0, cap, r.image.height)))
            && (cap >= MinWidth ==>
                  && b.region.image.width == b.region.image.crop.width == cap
                  && b.region.image.pos == r.image.pos && b.region.image.crop.x == r.image.crop.x
                  && Glued(b.region, style))
    ensures b.region.right.pos == b.pos
  {
    var img := r.image;
    var maxWidth := img.natural - img.crop.x;
    var newWidth := Min(maxWidth, pos.x - img.pos.x);
    var newX := Min(pos.x, img.pos.x + maxWidth) - 10.0;
    if newWidth < 30.0 then
      Hold(r, img.pos.x + 20.0)
    else
      Widen(r, style, newWidth, newX)
  }

  /** The corrected right drag never crops past the end of the bitmap, and
      agrees with the one as written on an image cropped from column 0. */
  lemma ClampedSpriteRightKeeps(r: Region, style: GlueStyle, pos: Point)
    requires WithinAsset(r.image)
    ensures WithinAsset(ClampedSpriteRightBound(r, style, pos).region.image)
    ensures r.image.crop.x == 0.0 ==> ClampedSpriteRightBound(r, style, pos) == SpriteRightBound(r, style, pos)
  {
  }
}

=== FILE: sprite_session.dfy ===
/** A whole editing session on one sprite, with the two corrected anchor
    bound functions: whatever the user drags, the image never goes left of
    or above the stage and its crop window stays inside the bitmap. */
module SpriteSession {
  import opened Geometry
  import opened Sprite
  import RowSnap
  import SpriteLeft
  import SpriteRight

  /** One pointer event of a session: the body moves to a candidate
      position, the body is released, or an anchor is dragged to a candidate
      position. */
  datatype Gesture =
    | MoveBody(to: Point)
    | ReleaseBody
    | PullRight(to: Point)
    | PullLeft(to: Point)

  /** The image's top-left corner is not above or left of the stage. Its
      right and bottom edges are not bounded: a right-anchor drag widens the
      image without looking at the stage, and a release rounds the image's
      y to the nearest row, which can be below the last row that fits. */
  predicate OnStage(img: Image) {
    img.pos.x >= 0.0 && img.pos.y >= 0.0
  }

  /** Replays `gestures` from region `r`, the anchors using the corrected
      bound functions; returns the final region and snap indicator. The
      image never goes left of or above the stage and its crop stays inside
      the bitmap. */
  method Replay(r: Region, style: GlueStyle, stage: Stage, indicator: RowSnap.Indicator,
                gestures: seq<Gesture>) returns (t: Region, shown: RowSnap.Indicator)
    requires r.image.height > 0.0
    requires WithinAsset(r.image) && OnStage(r.image)
    ensures WithinAsset(t.image) && OnStage(t.image)
    ensures t.image.height == r.image.height && t.image.natural == r.image.natural
    ensures |gestures| > 0 && gestures[|gestures| - 1] == ReleaseBody ==> !shown.visible
  {
    t, shown := r, indicator;
    var i := 0;
    while i < |gestures|
      invariant 0 <= i <= |gestures|
      invariant WithinAsset(t.image) && OnStage(t.image)
      invariant t.image.height == r.image.height && t.image.natural == r.image.natural
      invariant i > 0 && gestures[i - 1] == ReleaseBody ==> !shown.visible
    {
      match gestures[i] {
        case MoveBody(to) =>
          var d := DragMove(t, style, stage, to);
          t, shown := d.region, d.indicator;
        case ReleaseBody =>
          var d := Dragged(t, shown);
          ReleaseStaysBelowTop(d, style);
          var e := DragEnd(d, style);
          t, shown := e.region, e.indicator;
        case PullRight(to) =>
          SpriteRight.ClampedSpriteRightKeeps(t, style, to);
          t := SpriteRight.ClampedSpriteRightBound(t, style, to).region;
        case PullLeft(to) =>
          SpriteLeft.ClampedLeftBoundKeeps(t, style, to, 0.0);
          t := SpriteLeft.ClampedLeftBound(t, style, to).region;
      }
      i := i + 1;
    }
  }
}

=== FILE: waveform_group.dfy ===
/** The waveform drawn as a clipped group of bars with an outline frame and
    two 10x10 anchors that live on the layer beside the group. The right
    anchor sits just right of the clip window, the left anchor just left of
    it; their bound functions move the clip window's edges. */
module WaveformGroup {
  import opened Geometry

  /** The group's clip window, in group coordinates. */
  datatype Clip = Clip(x: real, y: real, width: real, height: real)

  /** The group on the layer, its full width (one column per bar), its clip
      window, the frame's x and width in group coordinates, and the two
      anchors' positions on the layer. */
  datatype Shape = Shape(pos: Point, width: real, clip: Clip, frameX: real, frameWidth: real,
                         right: Point, left: Point)

  /** What an anchor's bound function returns, and the shape after it ran;
      the library then moves the dragged anchor to the returned position. */
  datatype Moved = Moved(pos: Point, shape: Shape)

  /** The group as built: `width` bars at (10, 10), clipped to all of them,
      with the right anchor at the group's right edge and the left anchor
      at the group's origin. */
  function Create(width: real, height: real): (s: Shape)
    ensures s.pos == Point(10.0, 10.0) && s.clip == Clip(0.0, 0.0, width, height)
    ensures s.frameX == 0.0 && s.frameWidth == width
    ensures s.right == Point(s.pos.x + width, s.pos.y) && s.left == s.pos
  {
    Shape(Point(10.0, 10.0), width, Clip(0.0, 0.0, width, height), 0.0, width,
          Point(10.0 + width, 10.0), Point(10.0, 10.0))
  }

  /** Where `updateAnchors` puts the right anchor: just right of the clip. */
  function GlueRight(s: Shape): Point {
    Point(s.pos.x + s.clip.width + s.clip.x, s.pos.y)
  }

  /** Where `updateAnchors` puts the left anchor: just left of the clip. */
  function GlueLeft(s: Shape): Point {
    Point(s.pos.x + s.clip.x - HandleWidth, s.pos.y)
  }

  predicate Glued(s: Shape) {
    s.right == GlueRight(s) && s.left == GlueLeft(s)
  }

  /** `updateAnchors`: the right anchor's left side meets the clip window's
      right edge and the left anchor's right side meets its left edge, both
      on the group's top edge. */
  function UpdateAnchors(s: Shape): (u: Shape)
    ensures Glued(u)
    ensures u == s.(right := u.right, left := u.left)
    ensures u.right.x == s.pos.x + s.clip.x + s.clip.width
    ensures u.left.x + HandleWidth == s.pos.x + s.clip.x
  {
    s.(right := Point(s.pos.x + s.clip.width + s.clip.x, s.pos.y),
       left := Point(s.pos.x + s.clip.x - 10.0, s.pos.y))
  }

  /** The group as built is glued on the right but not on the left: the
      first group drag moves the left anchor `HandleWidth` to the left. */
  lemma CreateGlue(width: real, height: real)
    ensures UpdateAnchors(Create(width, height)).right == Create(width, height).right
    ensures UpdateAnchors(Create(width, height)).left.x == Create(width, height).left.x - HandleWidth
  {
  }

  /** Group `dragmove` and `dragend`: the group is where the pointer put it
      and the anchors follow the clip window; nothing else changes. */
  function GroupMove(s: Shape, to: Point): (u: Shape)
    ensures Glued(u)
    ensures u.pos == to && u.clip == s.clip && u.width == s.width
    ensures u.frameX == s.frameX && u.frameWidth == s.frameWidth
  {
    UpdateAnchors(s.(pos := to))
  }

  /** Moving a glued group moves both anchors by the same offset. */
  lemma GroupMoveCarriesAnchors(s: Shape, to: Point)
    requires Glued(s)
    ensures GroupMove(s, to).right.x - s.right.x == to.x - s.pos.x
    ensures GroupMove(s, to).left.x - s.left.x == to.x - s.pos.x
    ensures GroupMove(s, to).right.y - s.right.y == to.y - s.pos.y
  {
  }

  /** The right drag accepts a candidate that stays more than 20 px right of
      the left anchor once capped at the group's right edge. */
  predicate RightAccepts(s: Shape, pos: Point) {
    Min(pos.x, s.pos.x + s.width) > s.left.x + 20.0
  }

  /** The right anchor's bound function: the candidate is capped at the
      group's right edge and kept on the anchor's row. Too close to the left
      anchor, the frame collapses to 10 px, the clip is left alone and the
      anchor is held 20 px right of the left anchor. Otherwise the frame and
      the clip window get the width between the left anchor's right side
      and the candidate (but not more than the candidate's distance from
      the group's origin), and the clip's x is kept. */
  function RightBound(s: Shape, pos: Point): (m: Moved)
    ensures m.shape.right == m.pos && m.pos.y == s.right.y
    ensures m.shape.left == s.left && m.shape.pos == s.pos && m.shape.frameX == s.frameX
    ensures !RightAccepts(s, pos) ==>
              m.pos.x == s.left.x + 20.0 && m.shape.clip == s.clip && m.shape.frameWidth == 10.0
    ensures RightAccepts(s, pos) ==>
              && m.pos.x == Min(pos.x, s.pos.x + s.width)
              && m.shape.frameWidth == m.shape.clip.width
              && m.shape.clip == s.clip.(width := m.shape.clip.width)
              && m.shape.clip.width == Min(m.pos.x - s.left.x - HandleWidth, m.pos.x - s.pos.x)
  {
    var newX := Min(pos.x, s.pos.x + s.width);
    var newPos := Point(newX, s.right.y);
    var maxWidth := newPos.x - s.left.x - 10.0;
    var newWidth := Min(maxWidth, newPos.x - s.pos.x);
    if newPos.x <= s.left.x + 20.0 then
      var held := Point(s.left.x + 20.0, s.right.y);
      Moved(held, s.(frameWidth := 10.0, right := held))
    else
      Moved(newPos, s.(frameWidth := newWidth, clip := s.clip.(x := s.clip.x, y := s.clip.y, width := newWidth),
                       right := newPos))
  }

  /** With the left anchor glued and the clip starting inside the group, an
      accepted right drag leaves the right anchor exactly where the next
      `updateAnchors` puts it, and never past the group's right edge. */
  lemma RightBoundStaysGlued(s: Shape, pos: Point)
    requires s.left == GlueLeft(s) && s.clip.x >= 0.0 && RightAccepts(s, pos)
    ensures GlueRight(RightBound(s, pos).shape).x == RightBound(s, pos).pos.x
    ensures RightBound(s, pos).pos.x <= s.pos.x + s.width
  {
  }

  /** The left drag accepts a candidate that stays more than 20 px left of
      the right anchor once floored at 10 px left of the group's origin. */
  predicate LeftAccepts(s: Shape, pos: Point) {
    Max(pos.x, s.pos.x - HandleWidth) < s.right.x - 20.0
  }

  /** The left anchor's bound function: the candidate is floored at 10 px
      left of the group's origin and kept on the anchor's row. Too close to
      the right anchor, the frame collapses to 10 px, the clip is left alone
      and the anchor is held 20 px left of the right anchor. Otherwise the
      frame and the clip window start just right of the anchor and end at
      the right anchor's left side. The floor makes the clip's new x at
      least 0, so the branch for a negative one is never taken. */
  function LeftBound(s: Shape, pos: Point): (m: Moved)
    ensures m.shape.left == m.pos && m.pos.y == s.left.y
    ensures m.shape.right == s.right && m.shape.pos == s.pos
    ensures !LeftAccepts(s, pos) ==>
              m.pos.x == s.right.x - 20.0 && m.shape.clip == s.clip
              && m.shape.frameWidth == 10.0 && m.shape.frameX == s.frameX
    ensures LeftAccepts(s, pos) ==>
              && m.pos.x == Max(pos.x, s.pos.x - HandleWidth)
              && m.shape.clip.x >= 0.0
              && m.shape.clip.x == m.shape.frameX == m.pos.x + HandleWidth - s.pos.x
              && m.shape.clip.x + m.shape.clip.width == s.right.x - s.pos.x
              && m.shape.frameWidth == m.shape.clip.width
              && m.shape.clip.y == 0.0 && m.shape.clip.height == s.clip.height
  {
    var newX := Max(pos.x, s.pos.x - 10.0);
    var newPos := Point(newX, s.left.y);
    var newWidth := s.right.x - newPos.x - 10.0;
    var newCropX := newPos.x - s.pos.x + 10.0;
    if newPos.x >= s.right.x - 20.0 then
      var held := Point(s.right.x - 20.0, s.left.y);
      Moved(held, s.(frameWidth := 10.0, left := held))
    else
      var framed := s.(frameX := newCropX, frameWidth := newWidth);
      if newCropX < 0.0 then
        assert false;
        Moved(Point(s.pos.x - 10.0, s.left.y), framed.(clip := framed.clip.(x := 0.0, y := 0.0), left := s.left))
      else
        Moved(newPos, framed.(clip := framed.clip.(x := newCropX, y := 0.0, width := newWidth), left := newPos))
  }

  /** With both anchors on the group's top edge, an accepted left drag
      leaves both anchors exactly where the next `updateAnchors` puts them. */
  lemma LeftBoundStaysGlued(s: Shape, pos: Point)
    requires s.right.y == s.pos.y && s.left.y == s.pos.y && LeftAccepts(s, pos)
    ensures Glued(LeftBound(s, pos).shape)
    ensures UpdateAnchors(LeftBound(s, pos).shape) == LeftBound(s, pos).shape
  {
  }

  /** Neither anchor drag can move the clip window's left edge before the
      group's origin. */
  lemma ClipStartsInside(s: Shape, pos: Point)
    requires s.clip.x >= 0.0
    ensures RightBound(s, pos).shape.clip.x >= 0.0
    ensures LeftBound(s, pos).shape.clip.x >= 0.0
    ensures GroupMove(s, pos).clip.x >= 0.0
  {
  }
}
